=== FILE: README.md ===
# sprofile, modelled in Dafny

`sprofile` is a job epilogue profiler for Slurm clusters. At job start it
records per-core CPU time counters and per-GPU energy counters; at job stop
it reads them again and reports run time against the time limit, CPU load
against the number of allotted cores, peak memory against the limit, and
for GPU nodes the summed GPU load, peak GPU memory, the smallest GPU's total
memory and the energy used.

This project models the computational core of `sprofile/sprofile.py`:

- `GpuUsage`: `NVMLStats.usage_stats`. Per-process accounting records are
  filtered by job start. Their endpoints are sorted into split points. For
  each split, the records covering it (closed at both ends) contribute their
  utilisation and memory. The result is a load, a peak memory figure and the
  device's total memory.
- `GpuStats`: `NVMLStats.start` and `NVMLStats.stop`. These fold the
  per-device figures into one report: summed load, device count, largest
  peak, smallest total memory, and energy in kWh.
- `CpuSet`: the `cpuset.cpus` parser (`n` and inclusive `a-b` tokens,
  separated by commas).
- `CGroup`: `CGroupStats.start` and `CGroupStats.stop`. This covers the
  per-core counter files, the deltas taken with Python indexing, the load
  `sum(t / (run_time * 1e9))`, and the memory figures in GiB.
- `SlurmTime`: `TimeStats.stop` and the `RunTime` lookup of
  `CGroupStats.stop`. The duration search `re.search(".*Key=(([0-9]+)-)?
  ([0-9]+):([0-9]+):([0-9]+).*")` over `scontrol show job -o` output is
  modelled exactly: the greedy `.*` stays within one line, the first line
  holding a match wins, and within it the last position wins.
- `PyText`: the parts of Python's `str.strip`, `str.split` and `int()` that
  the core relies on.
- `Decimal`: decimal digits.
- `Sorting`: `sorted()`.
- `Lists`: `sum()` over integers and over floats.
- `Units`: the constants 1e9, 1024**3 and 3.6e9.
- `Results`: the error cases. Each Python exception the core can raise is
  one `Error` constructor: `ValueError` from `int()` is `ParseError`, a
  missing shelf key is `MissingBaseline`, `IndexError` is `IndexOutOfRange`,
  `.groups()` on a failed search is `FieldMissing`, float division by zero
  is `ZeroDivision`, `max([])` is `NoDevices`, and the `OverflowError` of
  `timedelta` for a duration of 10^9 days or more is `Overflow`.

Each file read, vendor library query and the scheduler's job description
enters the model as a parameter: a string holding the file's text, a
`Device` value holding what NVML reports, or the job description as a
string. The job start time enters `usage_stats` as an integer.

Python floats are modelled as exact `real`s, and Python integers as
unbounded `int`s.

Two behaviours of the code that a reader might not expect are kept as
written:

- A zero run time is a division by zero only when at least one core is
  listed. The list comprehension over an empty cpuset never divides, so
  the stop then reports a load of 0.
- The duration field is found by a greedy regular expression. When a line
  holds `Key=` more than once, the LAST well-formed occurrence on the first
  matching line is read, not the first.

## Model

| member | source | states |
|---|---|---|
| PyText.Strip | sprofile/sprofile.py:214 | `str.strip()` leaves neither end a white-space character |
| PyText.StripPadded | sprofile/sprofile.py:214 | stripping white space around a text with non-space ends gives that text back |
| PyText.SplitOn | sprofile/sprofile.py:226 | `str.split(sep)` gives at least one part, no part holds the separator, and joining the parts with it gives the text back |
| PyText.SplitOnJoin | sprofile/sprofile.py:226 | splitting a separator-joined list of separator-free parts gives the parts back |
| PyText.SplitWs | sprofile/sprofile.py:205 | `str.split()` gives non-empty tokens without white space |
| PyText.SplitWsJoin | sprofile/sprofile.py:205 | splitting a space-joined list of non-empty space-free tokens gives the tokens back |
| PyText.PyInt | sprofile/sprofile.py:214 | `int()` succeeds exactly when the text holds no information separator and its stripped form is an optional sign followed by digits with single `_` between them; the value's magnitude is those digits read in decimal, it is never negative without a `-`, and text holding any other character (a letter, say) is a `ValueError` |
| PyText.SignedDigits | sprofile/sprofile.py:214 | an already-stripped text reads as an integer exactly when it is an optional sign then `_`-grouped digits; the magnitude is their decimal value and only a leading `-` makes it negative |
| PyText.StripChars | sprofile/sprofile.py:214 | every character of a text that `str.strip()` does not keep is white space |
| PyText.PyIntSeparator | sprofile/sprofile.py:231 | an information separator U+001C..U+001F anywhere in the text makes `int()` a `ValueError`, even where `str.strip()` would remove it |
| PyText.SeparatorBeforeDigit | sprofile/sprofile.py:231 | `int("\x1c1")` is a `ValueError` although `"\x1c1".strip()` is `"1"` |
| PyText.PyIntShowNat | sprofile/sprofile.py:214 | `int(str(n)) == n` for every natural number |
| PyText.PyIntBlank | sprofile/sprofile.py:214 | `int()` of an empty or all-blank text is a `ValueError` |
| PyText.PyIntDigits | sprofile/sprofile.py:214 | `int()` of a run of ASCII digits is its decimal value |
| CGroup.ParseAll | sprofile/sprofile.py:205 | `list(map(int, tokens))` succeeds exactly when every token parses, keeps the length, and holds each token's value at its position |
| CGroup.ParseCounters | sprofile/sprofile.py:234 | a counter file reads as one integer per white-space separated token of the stripped text, each `int()` of its token, in order; if some token is not an integer the read fails |
| CGroup.ParseShowCounters | sprofile/sprofile.py:204-205 | reading a counter file written as space-separated numbers followed by any white space (the kernel's `"%llu "` per core and closing newline included) gives back every counter, in order, for any number of counters |
| CGroup.CgroupStart | sprofile/sprofile.py:203-207 | the baseline holds one integer per white-space separated token of the stripped counter file, each `int()` of its token, in order; if some token is not an integer the start fails |
| CGroup.StartShowCounters | sprofile/sprofile.py:203-207 | the start records exactly the counters of a counter file written out as space-separated numbers, whatever white space ends it |
| CGroup.CpuTimes | sprofile/sprofile.py:238 | one delta per listed core, in order, with Python negative indexing; it fails with `IndexError` exactly when some listed index is out of range for either list |
| CGroup.CpuTimesNonNegative | sprofile/sprofile.py:238 | for the non-negative indices the parser yields, the deltas exist exactly when every index is below both list lengths, and they are plain differences |
| CGroup.UnchangedCountersIdle | sprofile/sprofile.py:236-238 | counters that did not move give deltas summing to zero |
| CGroup.Loads | sprofile/sprofile.py:246 | each core's load times `run_time * 1e9` gives back its delta |
| CGroup.SumLoads | sprofile/sprofile.py:246-249 | the summed loads are the total delta over `run_time * 1e9` |
| CGroup.CpuLoad | sprofile/sprofile.py:246-250 | a division by zero exactly when the run time is 0 and a core is listed; otherwise the core count and total delta over run time, and 0 for no cores |
| CGroup.CgroupStop | sprofile/sprofile.py:210-253 | a report needs every file and the `RunTime` field to parse, a baseline to exist and every listed core to be in range; the stop succeeds whenever these hold and the run time is positive or no core is listed; the load is the total delta of the listed cores over `run_time * 1e9` (0 for no core), the core count is the cpuset's length and the memory figures are the files' values over 1024**3 |
| CGroup.Account | sprofile/sprofile.py:236-253 | the errors come in the source's order (missing baseline, then `IndexError`, then a missing `RunTime`, then division by zero for a zero run time with a listed core); when none applies the stop succeeds; a report's load is the total delta over run time (0 for no core), the core count is the cpuset's length, and memory is in GiB |
| CGroup.IdleAccount | sprofile/sprofile.py:236-249 | stopping against unchanged counters reports zero load on every listed core |
| CGroup.StartThenStop | sprofile/sprofile.py:203-253 | stopping against the baseline the start recorded from the same counter file, with a positive run time, succeeds with zero load and the cpuset's length as core count |
| CGroup.StopWithoutBaseline | sprofile/sprofile.py:236 | with no recorded baseline, the stop fails on the missing key once the files have parsed |
| CpuSet.Range | sprofile/sprofile.py:229 | `range(lo, stop)` holds `stop - lo` consecutive integers from `lo`, or none |
| CpuSet.InRange | sprofile/sprofile.py:229 | membership in `range(lo, stop)` is `lo <= x < stop` |
| CpuSet.ParseToken | sprofile/sprofile.py:227-231 | a token yields only non-negative core indices, and a token holding a character other than a digit, white space, a sign or `_` is a `ValueError` |
| CpuSet.ExpandTokens | sprofile/sprofile.py:225-231 | the list expands exactly when every token does, and yields only non-negative indices |
| CpuSet.Collect | sprofile/sprofile.py:225-231 | the token expansions combine exactly when every one succeeds |
| CpuSet.CollectConcat | sprofile/sprofile.py:225-231 | combining two runs of expansions one after the other concatenates their results |
| CpuSet.ExpandConcat | sprofile/sprofile.py:225-231 | expanding a token list is expanding its two halves and concatenating the results in input order |
| CpuSet.EmptyTokenIsError | sprofile/sprofile.py:226-231 | an empty token, as in `1,,2` or after a trailing comma, makes the whole list fail |
| CpuSet.ParseCpuSet | sprofile/sprofile.py:224-231 | a parsed cpuset holds only non-negative core indices, and the file held only digits, white space, signs, `_` and commas |
| CpuSet.TokenChars | sprofile/sprofile.py:226-231 | when every token parses, the comma-joined tokens hold only commas and characters `int()` can accept |
| CpuSet.NonNumericIsError | sprofile/sprofile.py:224-231 | a character that is not a digit, white space, a sign, `_` or a comma, as in `0-3,x`, makes the whole list a `ValueError` |
| CpuSet.ParseShowCpuSet | sprofile/sprofile.py:224-231 | reading a comma-separated list of single cores and ranges, followed by any white space such as the file's closing newline, gives every entry's cores, in order, with repetitions kept |
| CpuSet.ParseEntry | sprofile/sprofile.py:227-231 | `n` reads as `[n]`, and `a-b` reads as `a, a+1, ..., b` |
| CpuSet.EmptyIsError | sprofile/sprofile.py:224-231 | an empty `cpuset.cpus` is a `ValueError` |
| CpuSet.LeadingMinusIsError | sprofile/sprofile.py:226-231 | any token starting with `-` makes the whole list fail |
| CpuSet.ReversedRange | sprofile/sprofile.py:228-229 | a range written high-to-low stands for no core |
| SlurmTime.LastSome | sprofile/sprofile.py:91-92 | the greedy choice finds nothing exactly when no attempt succeeds; otherwise its position succeeds and no later one does |
| SlurmTime.LastMatch | sprofile/sprofile.py:91-92 | within one line, nothing is found exactly when no position starts `Key=` followed by a duration |
| SlurmTime.LastMatchFrom | sprofile/sprofile.py:91-92 | when a position matches and no later one does, the search returns that position's duration |
| SlurmTime.FirstSome | sprofile/sprofile.py:91-92 | the choice among lines finds nothing exactly when no line matches; otherwise its line matches and no earlier one does |
| SlurmTime.FirstLineMatch | sprofile/sprofile.py:91-92 | the search over lines finds nothing exactly when no line holds a match |
| SlurmTime.FirstLineWins | sprofile/sprofile.py:91-92 | the search returns the match of the first line holding one, whatever later lines hold |
| SlurmTime.Duration | sprofile/sprofile.py:92-96 | a duration is found only where the text starts with a digit, and always where it starts with `H:M:S`, since a failed day branch falls back to the pattern without days |
| SlurmTime.DurationIsSpan | sprofile/sprofile.py:91-96 | the duration pattern matches at a position exactly when the text there starts with a written-out `[D-]H:M:S` whose seconds are not followed by another digit |
| SlurmTime.DurationShape | sprofile/sprofile.py:91-96 | every match takes apart into day, hour, minute and second digit groups followed by a non-digit or the end, and its value is `D*86400 + H*3600 + M*60 + S` of those groups |
| SlurmTime.NoSeconds | sprofile/sprofile.py:91-96 | `12:34`, hours and minutes without seconds, is no match |
| SlurmTime.DurationOf | sprofile/sprofile.py:94-97 | `[D-]H:M:S`, each field any non-empty digit string (zero-padded as in `00:00:05`, or not), reads as `D*86400 + H*3600 + M*60 + S` with `int()` of each field, missing days counting as 0 |
| SlurmTime.FieldAtEnd | sprofile/sprofile.py:91-97 | a one-line description ending in `Key=[D-]H:M:S` (digit fields zero-padded or not) yields that duration in seconds, whatever precedes it |
| SlurmTime.FieldInDescription | sprofile/sprofile.py:91-97 | a description whose first line holds `Key=[D-]H:M:S` (digit fields zero-padded or not) yields that duration, whatever precedes the field on its line, whatever follows it there (not continuing the seconds, with no further `Key=`) and whatever later lines hold |
| SlurmTime.FieldIsLast | sprofile/sprofile.py:91-92 | within its line the field is the last place `Key=` starts, so the greedy search reads its duration |
| SlurmTime.NoKeyAcross | sprofile/sprofile.py:91-92 | a key sharing no character with a rendered duration cannot occur across one, only within the text on either side |
| SlurmTime.Seconds | sprofile/sprofile.py:91-94 | the lookup fails with the missing-field error exactly when no line holds the field, and otherwise returns the duration of the first line holding it |
| SlurmTime.AbsentField | sprofile/sprofile.py:91-94 | without any `Key=` the field lookup fails |
| SlurmTime.TimeStop | sprofile/sprofile.py:91-107 | the stop succeeds exactly when both fields are found and both are below 10^9 days, and returns (run time, time limit); a missing `TimeLimit` fails before anything else, and an overlong `TimeLimit` overflows before `RunTime` is looked at |
| SlurmTime.TimeStopOf | sprofile/sprofile.py:91-107 | on a description holding `RunTime=` and then `TimeLimit=` (digit fields zero-padded or not), the stop returns both durations in seconds, each from its own field, or overflows when either reaches 10^9 days |
| SlurmTime.PaddedDescription | sprofile/sprofile.py:91-107 | `JobId=42 RunTime=00:00:05 TimeLimit=01:00:00 TimeMin=N/A` gives a run time of 5 seconds and a time limit of 3600 |
| Sorting.Sort | sprofile/sprofile.py:129-131 | the result is ascending and a permutation of the input |
| Sorting.SortedUnique | sprofile/sprofile.py:129-131 | two ascending permutations of the same multiset are equal, so any correct sort gives `Sort`'s result |
| GpuUsage.Kept | sprofile/sprofile.py:127 | the filter never lengthens the list, and keeps each record started no earlier than the job exactly as often as the device reports it, and no other record |
| GpuUsage.KeptMembers | sprofile/sprofile.py:127 | a record is kept exactly when it is a device record that started no earlier than the job |
| GpuUsage.KeepStarted | sprofile/sprofile.py:127 | the filtering loop computes `Kept`, and every kept record is a started device record |
| GpuUsage.KeptTwice | sprofile/sprofile.py:127 | filtering is idempotent, and aggregating the kept records gives the same usage |
| GpuUsage.Splits | sprofile/sprofile.py:129-131 | the split points are ascending, twice as many as the records, and a permutation of all starts and ends |
| GpuUsage.SplitMembers | sprofile/sprofile.py:129-131 | a value is a split point exactly when it is some record's start or end |
| GpuUsage.SplitBounds | sprofile/sprofile.py:146-149 | the first split point is the earliest start and the last is the latest end |
| GpuUsage.WeightedIsWork | sprofile/sprofile.py:133-143 | however records overlap, the split-weighted utilisation equals the sum of each record's utilisation times its duration |
| GpuUsage.Covers | sprofile/sprofile.py:139 | for a split in order, a record covers it exactly when the record is running at every moment of the split, both ends included |
| GpuUsage.SplitSums | sprofile/sprofile.py:136-141 | one split's pass sums the utilisation and memory of exactly the covering records, each covering record's memory at most the sum |
| GpuUsage.SplitPasses | sprofile/sprofile.py:133-144 | the loop over split pairs computes the weighted utilisation and the peak, which bounds every split's memory sum |
| GpuUsage.PeakCoversRecord | sprofile/sprofile.py:134-144 | the peak is at least every kept record's own memory |
| GpuUsage.TouchingRecordsAddUp | sprofile/sprofile.py:139-144 | two records where one ends as the other starts have their memory summed in the peak |
| GpuUsage.Aggregate | sprofile/sprofile.py:127-151 | no kept record gives load 0 and peak 0; otherwise the load is the total work over 100 over the span from the earliest start to the latest end (at least 1); the peak is the memory sum of some split and at least every split's sum (0 with no split), so it lies between the largest kept record and the sum of all; the total memory is passed through |
| GpuUsage.AggregateKept | sprofile/sprofile.py:129-151 | on already-filtered records: load 0 and peak 0 for none; otherwise the work over 100 over the window; the peak is the largest memory sum over the splits, between the largest record and the sum of all |
| GpuUsage.UsageStats | sprofile/sprofile.py:127-151 | the loop form computes `Aggregate`: its load is the work over the window, and its peak is the largest of the splits' memory sums, bounding every kept record |
| GpuUsage.SeparateRecords | sprofile/sprofile.py:133-144 | two started records apart in time give the larger of their memories as the peak, not the sum |
| GpuUsage.SingleRecord | sprofile/sprofile.py:127-151 | one started record of positive duration gives its utilisation over 100 as load, and its memory as peak |
| GpuUsage.SameInterval | sprofile/sprofile.py:133-149 | two records over the same interval add their utilisations in the load |
| GpuStats.Energies | sprofile/sprofile.py:155-160 | the baseline holds one energy counter per device, in device order |
| GpuStats.Usages | sprofile/sprofile.py:179-186 | each device's figures are `usage_stats` of its records |
| GpuStats.MaxPeak | sprofile/sprofile.py:195 | `max` of the peaks bounds each one and is one of them |
| GpuStats.MinTotal | sprofile/sprofile.py:196 | `min` of the totals bounds each one and is one of them |
| GpuStats.EnergyUsed | sprofile/sprofile.py:188-190 | the energy is the difference of the counter totals over the devices both lists cover (`zip` stops at the shorter list), over 3.6e9 |
| GpuStats.NoEnergy | sprofile/sprofile.py:188-190 | unchanged counters mean zero energy |
| GpuStats.LoadsOf | sprofile/sprofile.py:180-184 | `gpu_avg_load` holds each device's load, in device order |
| GpuStats.Fold | sprofile/sprofile.py:192-198 | the load is the sum of the devices' loads; the count is the number of devices; the peak bounds every device's peak and is one of them; the smallest total bounds every device's total and is one of them, both in GiB |
| GpuStats.GpuStop | sprofile/sprofile.py:173-198 | a missing baseline fails first, and no device fails on `max([])`; with a baseline and a device the stop succeeds; the load is the sum of each device's `usage_stats` load, the count is the device number, the peak bounds every device's peak, the smallest total is at most each device's total (in GiB), and the energy is the counter difference in kWh |
| GpuStats.OneDevice | sprofile/sprofile.py:173-198 | with a single device the report is that device's load, its peak and its total memory in GiB |
| GpuStats.ExtremesAttained | sprofile/sprofile.py:192-198 | the reported peak is some device's peak, and the reported smallest total is some device's total |
| GpuStats.LoadsAdd | sprofile/sprofile.py:173-198 | the load reported for two groups of devices together is the sum of the loads reported for each group |
| GpuStats.IdleDevices | sprofile/sprofile.py:173-198 | stopping against the start counters with no started record on any device reports zero load and zero energy |

## Left out

- `Semaphore` (the report lock file with its polling timeout) is not modelled. It is file-system locking with sleeps.
- `num_gpus`, `NVMLHandle` and every `pynvml` call are not modelled. The devices' energy counters, accounting records and total memory are inputs.
- The environment globals, the shelf store, the cgroup file reads and the `scontrol` call are not modelled. They become parameters: the files' texts, the recorded baseline as an `Option`, and the job description string.
- The `StartTime` lookup and its `strptime`/`mktime` conversion are not modelled. The job start enters `usage_stats` as an integer already in the records' time unit. Local time zones and a float start time are outside the model.
- `main` is not modelled: argument parsing, the rank gate, the directory creation and the printed report with its formatting.
- PyText.PyInt: Python's `int()` also accepts non-ASCII Unicode digits. The model accepts ASCII digits only. White space follows `int()`: the Unicode white space of `str.isspace()` except the information separators U+001C..U+001F, which `int()` rejects.
- Float rounding is not modelled: every `/` on floats is exact division of reals, so loads, GiB and kWh figures are the exact quotients.
- Fixed-width integers are not modelled. The vendor API's unsigned record fields are natural numbers and the start time is an integer, so overflow of the C types cannot occur in the model.

=== FILE: cgroup.dfy ===
/** The cgroup side of the profiler: the per-core CPU counters recorded at
    start, the counters read again at stop, and the job's CPU load, core
    count and memory figures derived from them (`CGroupStats`). File reads
    are inputs: each file's whole text is a parameter. */
module CGroup {
  import opened Results
  import opened Decimal
  import opened PyText
  import opened CpuSet
  import SlurmTime
  import opened Units
  import opened Lists

  // ---------------------------------------------------------------------
  // Counter files.

  /** `int()` applied to every token, in order; the first token it rejects
      makes the whole list fail. */
  function ParseAll(tokens: seq<string>): (r: Result<seq<int>>)
    ensures r.Ok? <==> forall i :: 0 <= i < |tokens| ==> PyInt(tokens[i]).Ok?
    ensures r.Ok? ==> |r.value| == |tokens|
    ensures r.Ok? ==> forall i :: 0 <= i < |tokens| ==> r.value[i] == PyInt(tokens[i]).value
  {
    CollectInts(IntResults(tokens))
  }

  /** `int()` of each token, in order. */
  function IntResults(tokens: seq<string>): (rs: seq<Result<int>>)
    ensures |rs| == |tokens|
    ensures forall i :: 0 <= i < |tokens| ==> rs[i] == PyInt(tokens[i])
  {
    if tokens == [] then [] else [PyInt(tokens[0])] + IntResults(tokens[1..])
  }

  /** The values in order; the first error makes the whole list fail. */
  function CollectInts(rs: seq<Result<int>>): (r: Result<seq<int>>)
    ensures r.Ok? <==> forall i :: 0 <= i < |rs| ==> rs[i].Ok?
    ensures r.Ok? ==> |r.value| == |rs|
    ensures r.Ok? ==> forall i :: 0 <= i < |rs| ==> r.value[i] == rs[i].value
  {
    if rs == [] then Ok([])
    else
      var head :- rs[0];
      var tail :- CollectInts(rs[1..]);
      assert forall i :: 1 <= i < |rs| ==> rs[i] == rs[1..][i - 1];
      Ok([head] + tail)
  }

  /** A white-space separated counter file, such as
      `cpuacct.usage_percpu`: one integer per white-space separated token
      of the stripped text, in order; a token `int()` rejects makes the
      whole file fail. */
  function ParseCounters(text: string): (r: Result<seq<int>>)
    ensures r.Ok? ==> |r.value| == |SplitWs(Strip(text))|
    ensures r.Ok? ==> forall i :: 0 <= i < |SplitWs(Strip(text))| ==>
      PyInt(SplitWs(Strip(text))[i]) == Ok(r.value[i])
    ensures r.Err? ==> exists i :: 0 <= i < |SplitWs(Strip(text))| && PyInt(SplitWs(Strip(text))[i]).Err?
  {
    ParseAll(SplitWs(Strip(text)))
  }

  /** A counter list written out as decimal numbers separated by single
      spaces. The kernel's `cpuacct.usage_percpu` is this text followed by
      white space (a space after every number and a closing newline), which
      the lemmas below take as a separate all-white-space suffix. */
  function ShowCounters(vs: seq<nat>): string {
    JoinWith(ShowAll(vs), ' ')
  }

  function ShowAll(vs: seq<nat>): (r: seq<string>)
    ensures |r| == |vs|
    ensures forall i :: 0 <= i < |vs| ==> r[i] == ShowNat(vs[i])
  {
    if vs == [] then [] else [ShowNat(vs[0])] + ShowAll(vs[1..])
  }

  /** Reading a written-out counter list, with any trailing white space,
      gives the counters back, however many there are (none included). */
  lemma ParseShowCounters(vs: seq<nat>, w: string)
    requires AllSpace(w)
    ensures var r := ParseCounters(ShowCounters(vs) + w);
      r.Ok? && |r.value| == |vs| && forall i :: 0 <= i < |vs| ==> r.value[i] == vs[i]
  {
    var parts := ShowAll(vs);
    ShownTokens(vs);
    assert Strip(ShowCounters(vs) + w) == ShowCounters(vs) by {
      StripShown(vs, w);
    }
    SplitWsJoin(parts);
    ParseAllShown(vs);
  }

  lemma ShownTokens(vs: seq<nat>)
    ensures forall i :: 0 <= i < |vs| ==>
      var t := ShowAll(vs)[i]; t != [] && NoSpace(t) && IsDigit(t[0]) && IsDigit(t[|t| - 1])
  {
    var parts := ShowAll(vs);
    forall i | 0 <= i < |parts|
      ensures parts[i] != [] && NoSpace(parts[i]) && IsDigit(parts[i][0]) && IsDigit(parts[i][|parts[i]| - 1])
    {
      DigitsNoSpace(parts[i]);
    }
  }

  /** `strip()` removes exactly the trailing white space of a written-out
      counter list. */
  lemma StripShown(vs: seq<nat>, w: string)
    requires AllSpace(w)
    ensures Strip(ShowCounters(vs) + w) == ShowCounters(vs)
  {
    var parts := ShowAll(vs);
    var s := ShowCounters(vs);
    ShownTokens(vs);
    if |parts| > 0 {
      JoinEnds(parts, ' ');
      assert !IsSpace(s[0]) && !IsSpace(s[|s| - 1]);
    }
    StripPadded([], s, w);
    assert [] + s + w == s + w;
  }

  /** `int()` reads every rendered counter back. */
  lemma ParseAllShown(vs: seq<nat>)
    ensures var r := ParseAll(ShowAll(vs));
      r.Ok? && |r.value| == |vs| && forall i :: 0 <= i < |vs| ==> r.value[i] == vs[i]
  {
    var parts := ShowAll(vs);
    forall i | 0 <= i < |vs| ensures PyInt(parts[i]) == Ok(vs[i]) {
      PyIntShowNat(vs[i]);
    }
  }

  lemma DigitsNoSpace(s: string)
    requires AllDigits(s)
    ensures NoSpace(s)
  {
    assert forall i :: 0 <= i < |s| ==> !IsSpace(s[i]);
  }

  // ---------------------------------------------------------------------
  // Per-core deltas.

  /** Python's `xs[i]`: a negative index counts from the end; anything
      outside `-len(xs) .. len(xs)-1` is an `IndexError`. */
  predicate InBounds(xs: seq<int>, i: int) {
    -|xs| <= i < |xs|
  }

  function At(xs: seq<int>, i: int): int
    requires InBounds(xs, i)
  {
    if i < 0 then xs[|xs| + i] else xs[i]
  }

  /** `[usage[i] - old[i] for i in cpuset]`: one delta per listed core, in
      the list's order; an index past either counter list is an error. */
  function CpuTimes(usage: seq<int>, before: seq<int>, cpuset: seq<int>): (r: Result<seq<int>>)
    ensures r.Ok? <==> forall k :: 0 <= k < |cpuset| ==> InBounds(usage, cpuset[k]) && InBounds(before, cpuset[k])
    ensures r.Ok? ==> |r.value| == |cpuset|
    ensures r.Ok? ==> forall k :: 0 <= k < |cpuset| ==> r.value[k] == At(usage, cpuset[k]) - At(before, cpuset[k])
    ensures r.Err? ==> r.error == IndexOutOfRange
  {
    if cpuset == [] then Ok([])
    else if !InBounds(usage, cpuset[0]) || !InBounds(before, cpuset[0]) then Err(IndexOutOfRange)
    else
      var tail :- CpuTimes(usage, before, cpuset[1..]);
      assert forall k :: 1 <= k < |cpuset| ==> cpuset[k] == cpuset[1..][k - 1];
      Ok([At(usage, cpuset[0]) - At(before, cpuset[0])] + tail)
  }

  /** For the non-negative indices the cpuset parser produces, a listed core
      is in range exactly when it is below both list lengths. */
  lemma CpuTimesNonNegative(usage: seq<int>, before: seq<int>, cpuset: seq<int>)
    requires forall k :: 0 <= k < |cpuset| ==> cpuset[k] >= 0
    ensures CpuTimes(usage, before, cpuset).Ok? <==>
      forall k :: 0 <= k < |cpuset| ==> cpuset[k] < |usage| && cpuset[k] < |before|
    ensures var r := CpuTimes(usage, before, cpuset);
      r.Ok? ==> forall k :: 0 <= k < |cpuset| ==> r.value[k] == usage[cpuset[k]] - before[cpuset[k]]
  {
  }

  /** Counters that did not move give a zero delta on every core. */
  lemma UnchangedCountersIdle(usage: seq<int>, cpuset: seq<int>)
    requires forall k :: 0 <= k < |cpuset| ==> InBounds(usage, cpuset[k])
    ensures var r := CpuTimes(usage, usage, cpuset);
      r.Ok? && Sum(r.value) == 0
  {
    var r := CpuTimes(usage, usage, cpuset);
    SumZero(r.value);
  }

  // ---------------------------------------------------------------------
  // Load.

  /** `[t / (run_time * 1e9) for t in cpu_times]`: each core's share of the
      run time, as a fraction of one core. */
  function Loads(times: seq<int>, runTime: nat): (r: seq<real>)
    requires runTime > 0 || times == []
    ensures |r| == |times|
    ensures forall k :: 0 <= k < |times| ==> r[k] * (runTime as real * NanosPerSecond) == times[k] as real
  {
    if times == [] then []
    else [times[0] as real / (runTime as real * NanosPerSecond)] + Loads(times[1..], runTime)
  }

  /** The summed per-core loads are the total CPU time over the run time. */
  lemma {:induction false} SumLoads(times: seq<int>, runTime: nat)
    requires runTime > 0
    ensures SumReal(Loads(times, runTime)) == Sum(times) as real / (runTime as real * NanosPerSecond)
  {
    if times != [] {
      SumLoads(times[1..], runTime);
      var d := runTime as real * NanosPerSecond;
      assert Loads(times, runTime)[1..] == Loads(times[1..], runTime);
      assert times[0] as real / d + Sum(times[1..]) as real / d == (times[0] + Sum(times[1..])) as real / d;
    }
  }

  /** `(sum(cpu_load), len(cpu_load))`; a zero run time is a division by
      zero as soon as one core is listed. */
  function CpuLoad(times: seq<int>, runTime: nat): (r: Result<(real, nat)>)
    ensures r.Err? <==> runTime == 0 && times != []
    ensures r.Err? ==> r.error == ZeroDivision
    ensures r.Ok? ==> r.value.1 == |times|
    ensures r.Ok? && runTime > 0 ==> r.value.0 == Sum(times) as real / (runTime as real * NanosPerSecond)
    ensures r.Ok? && times == [] ==> r.value.0 == 0.0
  {
    if runTime == 0 && times != [] then Err(ZeroDivision)
    else
      var loads := Loads(times, runTime);
      assert runTime > 0 ==> SumReal(loads) == Sum(times) as real / (runTime as real * NanosPerSecond) by {
        if runTime > 0 {
          SumLoads(times, runTime);
        }
      }
      Ok((SumReal(loads), |loads|))
  }

  // ---------------------------------------------------------------------
  // Start and stop.

  /** What `CGroupStats.stop` returns: summed load, number of listed cores,
      peak and limit memory in GiB. */
  datatype CpuReport = CpuReport(load: real, cores: nat, memPeakGiB: real, memLimitGiB: real)

  /** `CGroupStats.start`: the per-core counters as the baseline, one
      integer per white-space separated token of the stripped file, in
      order; a token `int()` rejects makes the start fail. */
  function CgroupStart(usageText: string): (r: Result<seq<int>>)
    ensures r.Ok? ==> |r.value| == |SplitWs(Strip(usageText))|
    ensures r.Ok? ==> forall i :: 0 <= i < |SplitWs(Strip(usageText))| ==>
      PyInt(SplitWs(Strip(usageText))[i]) == Ok(r.value[i])
    ensures r.Err? ==> exists i :: 0 <= i < |SplitWs(Strip(usageText))| && PyInt(SplitWs(Strip(usageText))[i]).Err?
  {
    ParseCounters(usageText)
  }

  /** The start records exactly the counters of a written-out counter file,
      whatever white space ends it. */
  lemma StartShowCounters(vs: seq<nat>, w: string)
    requires AllSpace(w)
    ensures CgroupStart(ShowCounters(vs) + w) == Ok(vs)
  {
    ParseShowCounters(vs, w);
    var r := CgroupStart(ShowCounters(vs) + w);
    assert r.value == vs;
  }

  /** `CGroupStats.stop`, in the source's order: the two memory files, the
      cpuset list and the counters are read and parsed, then `Account` does
      the rest. The first failing step decides the error. */
  function CgroupStop(memMaxText: string, memLimitText: string, cpusetText: string,
                      usageText: string, baseline: Option<seq<int>>, jobInfo: string): (r: Result<CpuReport>)
    ensures r.Ok? ==> ParseCpuSet(cpusetText).Ok? && r.value.cores == |ParseCpuSet(cpusetText).value|
    ensures r.Ok? ==> baseline.Some? && ParseCounters(usageText).Ok?
    ensures r.Ok? ==> PyInt(Strip(memMaxText)).Ok? && r.value.memPeakGiB == PyInt(Strip(memMaxText)).value as real / BytesPerGiB
    ensures r.Ok? ==> PyInt(Strip(memLimitText)).Ok? && r.value.memLimitGiB == PyInt(Strip(memLimitText)).value as real / BytesPerGiB
    ensures r.Ok? ==> SlurmTime.Seconds(jobInfo, SlurmTime.RunTimeKey).Ok?
    ensures r.Ok? ==>
      var times := CpuTimes(ParseCounters(usageText).value, baseline.value, ParseCpuSet(cpusetText).value);
      var runTime := SlurmTime.Seconds(jobInfo, SlurmTime.RunTimeKey).value;
      && times.Ok?
      && (runTime > 0 ==> r.value.load == Sum(times.value) as real / (runTime as real * NanosPerSecond))
      && (runTime == 0 ==> r.value.load == 0.0)
    ensures
      && PyInt(Strip(memMaxText)).Ok? && PyInt(Strip(memLimitText)).Ok?
      && ParseCpuSet(cpusetText).Ok? && ParseCounters(usageText).Ok? && baseline.Some?
      && CpuTimes(ParseCounters(usageText).value, baseline.value, ParseCpuSet(cpusetText).value).Ok?
      && SlurmTime.Seconds(jobInfo, SlurmTime.RunTimeKey).Ok?
      && (SlurmTime.Seconds(jobInfo, SlurmTime.RunTimeKey).value > 0 || ParseCpuSet(cpusetText).value == [])
      ==> r.Ok?
  {
    StopParsed(PyInt(Strip(memMaxText)), PyInt(Strip(memLimitText)), ParseCpuSet(cpusetText),
               ParseCounters(usageText), baseline, SlurmTime.Seconds(jobInfo, SlurmTime.RunTimeKey))
  }

  /** The stop on the outcome of each read: the first failed read decides
      the error, in the order the files are read. */
  function StopParsed(memMax: Result<int>, memLimit: Result<int>, cpuset: Result<seq<int>>,
                      usage: Result<seq<int>>, baseline: Option<seq<int>>, runTime: Result<nat>): (r: Result<CpuReport>)
    ensures r.Ok? ==> memMax.Ok? && memLimit.Ok? && cpuset.Ok? && usage.Ok? && baseline.Some? && runTime.Ok?
    ensures r.Ok? ==> r.value.cores == |cpuset.value|
    ensures r.Ok? ==> r.value.memPeakGiB == memMax.value as real / BytesPerGiB
    ensures r.Ok? ==> r.value.memLimitGiB == memLimit.value as real / BytesPerGiB
    ensures r.Ok? ==>
      var times := CpuTimes(usage.value, baseline.value, cpuset.value);
      && times.Ok?
      && (runTime.value > 0 ==> r.value.load == Sum(times.value) as real / (runTime.value as real * NanosPerSecond))
      && (runTime.value == 0 ==> r.value.load == 0.0)
    ensures
      && memMax.Ok? && memLimit.Ok? && cpuset.Ok? && usage.Ok? && baseline.Some?
      && CpuTimes(usage.value, baseline.value, cpuset.value).Ok? && runTime.Ok?
      && (runTime.value > 0 || cpuset.value == [])
      ==> r.Ok?
  {
    var mx :- memMax;
    var ml :- memLimit;
    var cs :- cpuset;
    var us :- usage;
    Account(mx, ml, cs, us, baseline, runTime)
  }

  /** The arithmetic half of the stop, on parsed values: the baseline lookup,
      the per-core deltas, the `RunTime` field (already looked up, but only
      consulted after the deltas, as in the source) and the load. */
  function Account(memMax: int, memLimit: int, cpuset: seq<int>, usage: seq<int>,
                   baseline: Option<seq<int>>, runTime: Result<nat>): (r: Result<CpuReport>)
    ensures baseline.None? ==> r == Err(MissingBaseline)
    ensures r.Ok? ==> baseline.Some? && runTime.Ok? && CpuTimes(usage, baseline.value, cpuset).Ok?
    ensures r.Ok? ==> r.value.cores == |cpuset|
    ensures r.Ok? ==> r.value.memPeakGiB * BytesPerGiB == memMax as real
    ensures r.Ok? ==> r.value.memLimitGiB * BytesPerGiB == memLimit as real
    ensures r.Ok? && runTime.value > 0 ==>
      r.value.load == Sum(CpuTimes(usage, baseline.value, cpuset).value) as real / (runTime.value as real * NanosPerSecond)
    ensures r.Ok? && cpuset == [] ==> r.value.load == 0.0
    ensures baseline.Some? && CpuTimes(usage, baseline.value, cpuset).Err? ==> r == Err(IndexOutOfRange)
    ensures baseline.Some? && CpuTimes(usage, baseline.value, cpuset).Ok? && runTime.Err? ==> r == Err(runTime.error)
    ensures baseline.Some? && runTime == Ok(0) && cpuset != [] && CpuTimes(usage, baseline.value, cpuset).Ok? ==>
      r == Err(ZeroDivision)
    ensures (&& baseline.Some? && runTime.Ok? && CpuTimes(usage, baseline.value, cpuset).Ok?
             && (runTime.value > 0 || cpuset == [])) ==> r.Ok?
  {
    var before :- if baseline.Some? then Ok(baseline.value) else Err(MissingBaseline);
    var times :- CpuTimes(usage, before, cpuset);
    var seconds :- runTime;
    var load :- CpuLoad(times, seconds);
    Ok(CpuReport(load.0, load.1, memMax as real / BytesPerGiB, memLimit as real / BytesPerGiB))
  }

  /** Stopping against the counters recorded at start, unchanged, reports
      zero load for any positive run time. */
  lemma IdleAccount(memMax: int, memLimit: int, cpuset: seq<int>, usage: seq<int>, runTime: nat)
    requires forall k :: 0 <= k < |cpuset| ==> 0 <= cpuset[k] < |usage|
    requires runTime > 0
    ensures var r := Account(memMax, memLimit, cpuset, usage, Some(usage), Ok(runTime));
      r.Ok? && r.value.load == 0.0 && r.value.cores == |cpuset|
  {
    assert forall k :: 0 <= k < |cpuset| ==> InBounds(usage, cpuset[k]);
    UnchangedCountersIdle(usage, cpuset);
    var times := CpuTimes(usage, usage, cpuset).value;
    NothingOverRunTime(times, runTime);
  }

  /** Stopping against the baseline the start recorded from the same
      counter file, with a positive run time, reports zero load on every
      listed core. */
  lemma StartThenStop(memMaxText: string, memLimitText: string, cpusetText: string,
                      usageText: string, jobInfo: string)
    requires PyInt(Strip(memMaxText)).Ok? && PyInt(Strip(memLimitText)).Ok?
    requires ParseCpuSet(cpusetText).Ok? && CgroupStart(usageText).Ok?
    requires forall k :: 0 <= k < |ParseCpuSet(cpusetText).value| ==>
      ParseCpuSet(cpusetText).value[k] < |CgroupStart(usageText).value|
    requires SlurmTime.Seconds(jobInfo, SlurmTime.RunTimeKey).Ok?
    requires SlurmTime.Seconds(jobInfo, SlurmTime.RunTimeKey).value > 0
    ensures var r := CgroupStop(memMaxText, memLimitText, cpusetText, usageText,
                                Some(CgroupStart(usageText).value), jobInfo);
      r.Ok? && r.value.load == 0.0 && r.value.cores == |ParseCpuSet(cpusetText).value|
  {
    var usage := ParseCounters(usageText).value;
    var cpuset := ParseCpuSet(cpusetText).value;
    assert CgroupStart(usageText).value == usage;
    IdleAccount(PyInt(Strip(memMaxText)).value, PyInt(Strip(memLimitText)).value, cpuset, usage,
                SlurmTime.Seconds(jobInfo, SlurmTime.RunTimeKey).value);
  }

  lemma NothingOverRunTime(times: seq<int>, runTime: nat)
    requires runTime > 0 && Sum(times) == 0
    ensures Sum(times) as real / (runTime as real * NanosPerSecond) == 0.0
  {
  }

  /** A stop with no counters recorded at start fails on the missing
      baseline once the files read before it have parsed. */
  lemma StopWithoutBaseline(memMaxText: string, memLimitText: string, cpusetText: string,
                            usageText: string, jobInfo: string)
    requires PyInt(Strip(memMaxText)).Ok? && PyInt(Strip(memLimitText)).Ok?
    requires ParseCpuSet(cpusetText).Ok? && ParseCounters(usageText).Ok?
    ensures CgroupStop(memMaxText, memLimitText, cpusetText, usageText, None, jobInfo) == Err(MissingBaseline)
  {
  }
}

=== FILE: cpuset.dfy ===
/** The job's `cpuset.cpus` list as `CGroupStats.stop` reads it: comma
    separated tokens, each a core index `n` or an inclusive range `a-b`,
    expanded in order into the list of core indices. Repeated indices are
    kept; nothing is sorted or de-duplicated. */
module CpuSet {
  import opened Results
  import opened Decimal
  import opened PyText

  /** Python's `range(lo, stop)`: `lo, lo+1, ..., stop-1`, empty when
      `lo >= stop`. */
  function Range(lo: int, stop: int): (r: seq<int>)
    ensures |r| == if lo < stop then stop - lo else 0
    ensures forall k :: 0 <= k < |r| ==> r[k] == lo + k
    decreases stop - lo
  {
    if lo >= stop then [] else [lo] + Range(lo + 1, stop)
  }

  /** Membership in a range is the half-open interval test. */
  lemma InRange(lo: int, stop: int, x: int)
    ensures x in Range(lo, stop) <==> lo <= x < stop
  {
    var r := Range(lo, stop);
    if lo <= x < stop {
      assert r[x - lo] == x;
    }
  }

  /** One token: `a-b` when it holds a `-`, otherwise a single index. A
      range token must split into exactly two parts, each accepted by
      `int()`; `range(a, b + 1)` is empty when `a > b`. */
  function ParseToken(c: string): (r: Result<seq<int>>)
    ensures r.Ok? ==> forall k :: 0 <= k < |r.value| ==> r.value[k] >= 0
    ensures r.Ok? ==> forall ch :: ch in c ==> IntChar(ch)
  {
    if '-' in c then
      var bounds := SplitOn(c, '-');
      if |bounds| != 2 then Err(ParseError)
      else
        assert JoinWith(bounds, '-') == bounds[0] + ['-'] + JoinWith(bounds[1..], '-');
        assert JoinWith(bounds[1..], '-') == bounds[1];
        RangeToken(bounds[0], bounds[1])
    else
      var n :- PyInt(c);
      Ok([n])
  }

  /** `start, stop = map(int, ...)` then `range(start, stop + 1)`. */
  function RangeToken(a: string, b: string): (r: Result<seq<int>>)
    requires '-' !in a
    ensures r.Ok? ==> forall k :: 0 <= k < |r.value| ==> r.value[k] >= 0
    ensures r.Ok? ==> forall ch :: ch in a + ['-'] + b ==> IntChar(ch)
  {
    var lo :- PyInt(a);
    var hi :- PyInt(b);
    Ok(Range(lo, hi + 1))
  }

  /** Each token's expansion, in order. */
  function ParseTokens(tokens: seq<string>): (rs: seq<Result<seq<int>>>)
    ensures |rs| == |tokens|
    ensures forall i :: 0 <= i < |tokens| ==> rs[i] == ParseToken(tokens[i])
  {
    if tokens == [] then [] else [ParseToken(tokens[0])] + ParseTokens(tokens[1..])
  }

  /** The expansions concatenated in order; the first failing one makes the
      whole list fail with its error. */
  function Collect(rs: seq<Result<seq<int>>>): (r: Result<seq<int>>)
    ensures r.Ok? <==> forall i :: 0 <= i < |rs| ==> rs[i].Ok?
  {
    if rs == [] then Ok([])
    else
      var head :- rs[0];
      var tail :- Collect(rs[1..]);
      assert forall i :: 1 <= i < |rs| ==> rs[i] == rs[1..][i - 1];
      Ok(head + tail)
  }

  /** Collecting two lists of expansions one after the other is collecting
      each and concatenating the results. */
  lemma {:induction false} CollectConcat(ra: seq<Result<seq<int>>>, rb: seq<Result<seq<int>>>)
    requires Collect(ra).Ok? && Collect(rb).Ok?
    ensures Collect(ra + rb) == Ok(Collect(ra).value + Collect(rb).value)
  {
    if ra == [] {
      assert ra + rb == rb;
      assert [] + Collect(rb).value == Collect(rb).value;
    } else {
      assert (ra + rb)[0] == ra[0] && (ra + rb)[1..] == ra[1..] + rb;
      CollectConcat(ra[1..], rb);
      var h, t, u := ra[0].value, Collect(ra[1..]).value, Collect(rb).value;
      assert h + (t + u) == (h + t) + u;
    }
  }

  /** The tokens expanded and concatenated in order; the first token that
      fails makes the whole list fail. */
  function ExpandTokens(tokens: seq<string>): (r: Result<seq<int>>)
    ensures r.Ok? <==> forall i :: 0 <= i < |tokens| ==> ParseToken(tokens[i]).Ok?
    ensures r.Ok? ==> forall k :: 0 <= k < |r.value| ==> r.value[k] >= 0
  {
    var rs := ParseTokens(tokens);
    NonNegativeCollect(rs);
    Collect(rs)
  }

  /** Expansions of non-negative indices collect into non-negative indices. */
  lemma {:induction false} NonNegativeCollect(rs: seq<Result<seq<int>>>)
    requires forall i :: 0 <= i < |rs| && rs[i].Ok? ==> forall k :: 0 <= k < |rs[i].value| ==> rs[i].value[k] >= 0
    ensures Collect(rs).Ok? ==> forall k :: 0 <= k < |Collect(rs).value| ==> Collect(rs).value[k] >= 0
  {
    if rs != [] && rs[0].Ok? {
      NonNegativeCollect(rs[1..]);
    }
  }

  /** The contents of `cpuset.cpus`, stripped, split at commas, expanded. */
  function ParseCpuSet(text: string): (r: Result<seq<int>>)
    ensures r.Ok? ==> forall k :: 0 <= k < |r.value| ==> r.value[k] >= 0
    ensures r.Ok? ==> forall ch :: ch in text ==> ch == ',' || IntChar(ch)
  {
    var tokens := SplitOn(Strip(text), ',');
    if ExpandTokens(tokens).Ok? then
      TokenChars(tokens);
      StripChars(text);
      ExpandTokens(tokens)
    else ExpandTokens(tokens)
  }

  /** The characters of a list whose every token expands. */
  lemma {:induction false} TokenChars(tokens: seq<string>)
    requires forall i :: 0 <= i < |tokens| ==> ParseToken(tokens[i]).Ok?
    ensures forall ch :: ch in JoinWith(tokens, ',') ==> ch == ',' || IntChar(ch)
  {
    if |tokens| > 1 {
      TokenChars(tokens[1..]);
      assert ParseToken(tokens[0]).Ok?;
      var rest := JoinWith(tokens[1..], ',');
      forall ch | ch in tokens[0] + [','] + rest ensures ch == ',' || IntChar(ch) {
        if ch in tokens[0] {
        } else if ch != ',' {
          assert ch in rest;
        }
      }
    } else if |tokens| == 1 {
      assert ParseToken(tokens[0]).Ok?;
    }
  }

  /** A character that is neither a digit, white space, a sign, `_` nor a
      comma, as in `0-3,x`, makes the whole list fail. */
  lemma NonNumericIsError(text: string, i: nat)
    requires i < |text| && text[i] != ',' && !IntChar(text[i])
    ensures ParseCpuSet(text).Err?
  {
    assert text[i] in text;
  }

  // ---------------------------------------------------------------------
  // The list written out, and read back.

  /** One entry of a cpuset list: a single core or an inclusive range. */
  datatype Entry = Single(core: nat) | Cores(first: nat, last: nat)

  /** The cores an entry stands for, in increasing order. */
  function Members(e: Entry): seq<int> {
    match e
    case Single(n) => [n]
    case Cores(a, b) => Range(a, b + 1)
  }

  function AllMembers(es: seq<Entry>): seq<int> {
    if es == [] then [] else Members(es[0]) + AllMembers(es[1..])
  }

  function ShowEntry(e: Entry): string {
    match e
    case Single(n) => ShowNat(n)
    case Cores(a, b) => ShowNat(a) + ['-'] + ShowNat(b)
  }

  function ShowEntries(es: seq<Entry>): (r: seq<string>)
    ensures |r| == |es|
    ensures forall i :: 0 <= i < |es| ==> r[i] == ShowEntry(es[i])
  {
    if es == [] then [] else [ShowEntry(es[0])] + ShowEntries(es[1..])
  }

  /** A list of entries written out with commas between them. The kernel's
      `cpuset.cpus` file is this text followed by a newline, which
      `ParseShowCpuSet` takes as an all-white-space suffix. */
  function ShowCpuSet(es: seq<Entry>): string {
    JoinWith(ShowEntries(es), ',')
  }

  /** Reading a written-out list, with any trailing white space, gives
      every entry's cores, in order, with repetitions kept. */
  lemma ParseShowCpuSet(es: seq<Entry>, w: string)
    requires |es| > 0 && AllSpace(w)
    ensures ParseCpuSet(ShowCpuSet(es) + w) == Ok(AllMembers(es))
  {
    StripShownCpuSet(es, w);
    ShownEntries(es);
    SplitOnJoin(ShowEntries(es), ',');
    ExpandShown(es);
  }

  lemma ShownEntries(es: seq<Entry>)
    ensures forall i :: 0 <= i < |es| ==>
      var t := ShowEntries(es)[i]; t != [] && ',' !in t && IsDigit(t[0]) && IsDigit(t[|t| - 1])
  {
    var parts := ShowEntries(es);
    forall i | 0 <= i < |parts| ensures ',' !in parts[i] && parts[i] != [] && IsDigit(parts[i][0]) && IsDigit(parts[i][|parts[i]| - 1]) {
      ShowEntryShape(es[i]);
    }
  }

  /** `strip()` removes exactly the trailing white space of a written-out
      list. */
  lemma StripShownCpuSet(es: seq<Entry>, w: string)
    requires |es| > 0 && AllSpace(w)
    ensures Strip(ShowCpuSet(es) + w) == ShowCpuSet(es)
  {
    var parts := ShowEntries(es);
    var s := ShowCpuSet(es);
    ShownEntries(es);
    JoinEnds(parts, ',');
    assert !IsSpace(s[0]) && !IsSpace(s[|s| - 1]);
    StripPadded([], s, w);
    assert [] + s + w == s + w;
  }

  lemma ExpandShown(es: seq<Entry>)
    ensures ExpandTokens(ShowEntries(es)) == Ok(AllMembers(es))
  {
    var rs := ParseTokens(ShowEntries(es));
    forall i | 0 <= i < |rs| ensures rs[i] == Ok(Members(es[i])) {
      ParseEntry(es[i]);
    }
    CollectMembers(rs, es);
  }

  lemma {:induction false} CollectMembers(rs: seq<Result<seq<int>>>, es: seq<Entry>)
    requires |rs| == |es| && forall i :: 0 <= i < |rs| ==> rs[i] == Ok(Members(es[i]))
    ensures Collect(rs) == Ok(AllMembers(es))
  {
    if rs != [] {
      CollectMembers(rs[1..], es[1..]);
    }
  }

  /** Each written-out entry reads back as its cores. */
  lemma ParseEntry(e: Entry)
    ensures ParseToken(ShowEntry(e)) == Ok(Members(e))
  {
    match e {
      case Single(n) =>
        NoMinus(ShowNat(n));
        PyIntShowNat(n);
      case Cores(a, b) =>
        var s := ShowNat(a) + ['-'] + ShowNat(b);
        assert s[|ShowNat(a)|] == '-';
        NoMinus(ShowNat(a));
        NoMinus(ShowNat(b));
        assert JoinWith([ShowNat(a), ShowNat(b)], '-') == s;
        SplitOnJoin([ShowNat(a), ShowNat(b)], '-');
        PyIntShowNat(a);
        PyIntShowNat(b);
    }
  }

  lemma NoMinus(s: string)
    requires AllDigits(s)
    ensures '-' !in s && ',' !in s
  {
    assert forall i :: 0 <= i < |s| ==> s[i] != '-' && s[i] != ',';
  }

  lemma ShowEntryShape(e: Entry)
    ensures var s := ShowEntry(e);
      ',' !in s && s != [] && IsDigit(s[0]) && IsDigit(s[|s| - 1])
  {
    match e {
      case Single(n) =>
        NoMinus(ShowNat(n));
      case Cores(a, b) =>
        var s := ShowNat(a) + ['-'] + ShowNat(b);
        NoMinus(ShowNat(a));
        NoMinus(ShowNat(b));
        assert forall i :: 0 <= i < |s| ==> s[i] != ',';
    }
  }

  // ---------------------------------------------------------------------
  // Malformed lists.

  /** An empty file is not a list: `int("")` fails. */
  lemma EmptyIsError()
    ensures ParseCpuSet("").Err?
  {
    PyIntBlank("");
    assert SplitOn(Strip(""), ',') == [""];
  }

  /** A token that starts with `-` (a negative index, or a range with no
      start) is an error, and so is the whole list that holds it. */
  lemma LeadingMinusIsError(tokens: seq<string>, i: nat)
    requires i < |tokens| && tokens[i] != [] && tokens[i][0] == '-'
    ensures ExpandTokens(tokens).Err?
  {
    var c := tokens[i];
    assert '-' in c;
    var bounds := SplitOn(c, '-');
    SplitOnLeading(c, '-');
    if |bounds| == 2 {
      PyIntBlank(bounds[0]);
    }
  }

  /** An empty token, as in `1,,2` or a trailing comma, is an error, and
      so is the whole list that holds it. */
  lemma EmptyTokenIsError(tokens: seq<string>, i: nat)
    requires i < |tokens| && tokens[i] == []
    ensures ExpandTokens(tokens).Err?
  {
    PyIntBlank(tokens[i]);
    assert ParseToken(tokens[i]).Err?;
  }

  /** Expanding a list is expanding its two halves and concatenating the
      results in order. */
  lemma ExpandConcat(a: seq<string>, b: seq<string>)
    requires ExpandTokens(a).Ok? && ExpandTokens(b).Ok?
    ensures ExpandTokens(a + b) == Ok(ExpandTokens(a).value + ExpandTokens(b).value)
  {
    ParseTokensConcat(a, b);
    CollectConcat(ParseTokens(a), ParseTokens(b));
  }

  lemma {:induction false} ParseTokensConcat(a: seq<string>, b: seq<string>)
    ensures ParseTokens(a + b) == ParseTokens(a) + ParseTokens(b)
  {
    if a == [] {
      assert a + b == b;
    } else {
      assert (a + b)[0] == a[0] && (a + b)[1..] == a[1..] + b;
      ParseTokensConcat(a[1..], b);
      var h := [ParseToken(a[0])];
      assert h + (ParseTokens(a[1..]) + ParseTokens(b)) == (h + ParseTokens(a[1..])) + ParseTokens(b);
    }
  }

  lemma SplitOnLeading(s: string, sep: char)
    requires s != [] && s[0] == sep
    ensures SplitOn(s, sep)[0] == []
  {
  }

  /** A range token with its bounds the wrong way round stands for no core. */
  lemma ReversedRange(a: nat, b: nat)
    requires a > b
    ensures ParseToken(ShowEntry(Cores(a, b))) == Ok([])
  {
    ParseEntry(Cores(a, b));
  }
}

=== FILE: decimal.dfy ===
/** Unsigned decimal numerals over ASCII digits: the value of a digit string
    and the canonical rendering of a natural number. Both the job-description
    duration fields and the cgroup counter files are written this way. */
module Decimal {

  predicate IsDigit(c: char) {
    '0' <= c <= '9'
  }

  predicate AllDigits(s: string) {
    forall i :: 0 <= i < |s| ==> IsDigit(s[i])
  }

  function DigitValue(c: char): (d: nat)
    requires IsDigit(c)
    ensures d < 10
  {
    (c as int) - ('0' as int)
  }

  function DigitChar(d: nat): (c: char)
    requires d < 10
    ensures IsDigit(c) && DigitValue(c) == d
  {
    (('0' as int) + d) as char
  }

  /** The value of a string of decimal digits, most significant first;
      leading zeros are allowed, as in Python's `int("007")`. */
  function DigitsValue(s: string): nat
    requires AllDigits(s)
  {
    if s == [] then 0
    else 10 * DigitsValue(s[..|s| - 1]) + DigitValue(s[|s| - 1])
  }

  /** The canonical decimal rendering of `n`: no sign, no leading zero. */
  function ShowNat(n: nat): (s: string)
    ensures 0 < |s| && AllDigits(s)
    ensures s[0] == '0' ==> n == 0
  {
    if n < 10 then [DigitChar(n)]
    else ShowNat(n / 10) + [DigitChar(n % 10)]
  }

  /** Reading back a rendered natural gives the natural. */
  lemma {:induction false} ShowNatValue(n: nat)
    ensures DigitsValue(ShowNat(n)) == n
  {
    if n >= 10 {
      var s := ShowNat(n);
      assert s[..|s| - 1] == ShowNat(n / 10);
      ShowNatValue(n / 10);
    }
  }
}

=== FILE: gpustats.dfy ===
/** `NVMLStats.start` and `NVMLStats.stop`: the energy counters recorded at
    start, and at stop the per-device usage folded into one report: summed
    load, device count, largest peak memory, smallest total memory, and the
    energy used since start. The NVML queries are inputs: each device is
    given by what the stop reads from it. */
module GpuStats {
  import opened Results
  import opened Units
  import opened Lists
  import opened GpuUsage

  /** What the stop reads from one device: its energy counter (millijoules
      since driver load), its accounting records and its total memory in
      bytes. */
  datatype Device = Device(energy: int, records: seq<Record>, totalMem: nat)

  /** What `NVMLStats.stop` returns. */
  datatype GpuReport = GpuReport(load: real, count: nat, peakGiB: real, minTotalGiB: real, energyKWh: real)

  /** The energy counters, one per device in order: what the start records
      as the baseline, and what the stop reads again. */
  function Energies(devices: seq<Device>): (r: seq<int>)
    ensures |r| == |devices|
    ensures forall i :: 0 <= i < |devices| ==> r[i] == devices[i].energy
  {
    if devices == [] then [] else [devices[0].energy] + Energies(devices[1..])
  }

  /** `usage_stats` of each device, in order. */
  function Usages(devices: seq<Device>, jobStart: int): (r: seq<Usage>)
    ensures |r| == |devices|
    ensures forall i :: 0 <= i < |devices| ==>
      r[i] == Aggregate(devices[i].records, jobStart, devices[i].totalMem)
  {
    if devices == [] then []
    else [Aggregate(devices[0].records, jobStart, devices[0].totalMem)] + Usages(devices[1..], jobStart)
  }

  /** The per-device loads, `gpu_avg_load`, in device order. */
  function LoadsOf(us: seq<Usage>): (r: seq<real>)
    ensures |r| == |us|
    ensures forall i :: 0 <= i < |us| ==> r[i] == us[i].load
  {
    if us == [] then [] else [us[0].load] + LoadsOf(us[1..])
  }

  /** `max` of the peaks; Python's `max` of an empty list is an error, so
      the list must not be empty. */
  function MaxPeak(us: seq<Usage>): (m: nat)
    requires us != []
    ensures forall i :: 0 <= i < |us| ==> us[i].peakMem <= m
    ensures exists i :: 0 <= i < |us| && m == us[i].peakMem
  {
    if |us| == 1 then us[0].peakMem
    else
      var rest := MaxPeak(us[1..]);
      assert forall i :: 1 <= i < |us| ==> us[i] == us[1..][i - 1];
      if us[0].peakMem >= rest then us[0].peakMem else rest
  }

  /** `min` of the total memories, over a non-empty list. */
  function MinTotal(us: seq<Usage>): (m: nat)
    requires us != []
    ensures forall i :: 0 <= i < |us| ==> m <= us[i].totalMem
    ensures exists i :: 0 <= i < |us| && m == us[i].totalMem
  {
    if |us| == 1 then us[0].totalMem
    else
      var rest := MinTotal(us[1..]);
      assert forall i :: 1 <= i < |us| ==> us[i] == us[1..][i - 1];
      if us[0].totalMem <= rest then us[0].totalMem else rest
  }

  /** `sum((n - o) / 3.6e9 for n, o in zip(now, before))`: `zip` stops at
      the shorter list, so the energy used is the difference of the counter
      totals over the devices both lists cover, converted to kWh. */
  function EnergyUsed(now: seq<int>, before: seq<int>): (r: real)
    ensures var m := if |now| <= |before| then |now| else |before|;
      r == (Sum(now[..m]) - Sum(before[..m])) as real / MillijoulesPerKWh
  {
    if now == [] || before == [] then 0.0
    else
      var m := if |now| <= |before| then |now| else |before|;
      assert now[..m] == [now[0]] + now[1..][..m - 1];
      assert before[..m] == [before[0]] + before[1..][..m - 1];
      (now[0] - before[0]) as real / MillijoulesPerKWh + EnergyUsed(now[1..], before[1..])
  }

  /** Counters that did not move mean no energy used. */
  lemma {:induction false} NoEnergy(counters: seq<int>)
    ensures EnergyUsed(counters, counters) == 0.0
  {
    if counters != [] {
      NoEnergy(counters[1..]);
    }
  }

  /** `NVMLStats.stop`. The baseline is looked up first, so a missing one
      fails even with no device; with no device at all, `max` of the empty
      peak list fails. */
  function GpuStop(baseline: Option<seq<int>>, devices: seq<Device>, jobStart: int): (r: Result<GpuReport>)
    ensures baseline.None? ==> r == Err(MissingBaseline)
    ensures baseline.Some? && devices == [] ==> r == Err(NoDevices)
    ensures baseline.Some? && devices != [] ==> r.Ok?
    ensures r.Ok? ==> r.value.count == |devices|
    ensures r.Ok? ==> var loads := LoadsOf(Usages(devices, jobStart));
      && r.value.load == SumReal(loads)
      && forall i :: 0 <= i < |devices| ==> loads[i] == Aggregate(devices[i].records, jobStart, devices[i].totalMem).load
    ensures r.Ok? ==> forall i :: 0 <= i < |devices| ==>
      Aggregate(devices[i].records, jobStart, devices[i].totalMem).peakMem as real / BytesPerGiB <= r.value.peakGiB
    ensures r.Ok? ==> forall i :: 0 <= i < |devices| ==>
      r.value.minTotalGiB <= devices[i].totalMem as real / BytesPerGiB
    ensures r.Ok? ==>
      var now, before := Energies(devices), baseline.value;
      var m := if |now| <= |before| then |now| else |before|;
      r.value.energyKWh == (Sum(now[..m]) - Sum(before[..m])) as real / MillijoulesPerKWh
  {
    if baseline.None? then Err(MissingBaseline)
    else if devices == [] then Err(NoDevices)
    else
      Ok(Fold(Usages(devices, jobStart), EnergyUsed(Energies(devices), baseline.value)))
  }

  /** The per-device figures folded into the report: summed load, count,
      largest peak and smallest total (both in GiB), and the energy. */
  function Fold(us: seq<Usage>, energy: real): (r: GpuReport)
    requires us != []
    ensures r.load == SumReal(LoadsOf(us))
    ensures r.count == |us| && r.energyKWh == energy
    ensures forall i :: 0 <= i < |us| ==> us[i].peakMem as real / BytesPerGiB <= r.peakGiB
    ensures exists i :: 0 <= i < |us| && r.peakGiB == us[i].peakMem as real / BytesPerGiB
    ensures forall i :: 0 <= i < |us| ==> r.minTotalGiB <= us[i].totalMem as real / BytesPerGiB
    ensures exists i :: 0 <= i < |us| && r.minTotalGiB == us[i].totalMem as real / BytesPerGiB
  {
    var peak := MaxPeak(us);
    var total := MinTotal(us);
    assert forall i :: 0 <= i < |us| ==> us[i].peakMem as real / BytesPerGiB <= peak as real / BytesPerGiB;
    assert forall i :: 0 <= i < |us| ==> total as real / BytesPerGiB <= us[i].totalMem as real / BytesPerGiB;
    GpuReport(SumReal(LoadsOf(us)), |us|, peak as real / BytesPerGiB, total as real / BytesPerGiB, energy)
  }

  /** Stopping against the counters recorded at start, with no record kept
      on any device, reports no load and no energy. */
  lemma IdleDevices(devices: seq<Device>, jobStart: int)
    requires devices != []
    requires forall i :: 0 <= i < |devices| ==> Kept(devices[i].records, jobStart) == []
    ensures var r := GpuStop(Some(Energies(devices)), devices, jobStart);
      r.Ok? && r.value.load == 0.0 && r.value.energyKWh == 0.0
  {
    NoEnergy(Energies(devices));
    IdleLoads(Usages(devices, jobStart), devices, jobStart);
  }

  /** With a single device the report is that device's own figures. */
  lemma OneDevice(baseline: seq<int>, d: Device, jobStart: int)
    ensures var r := GpuStop(Some(baseline), [d], jobStart);
      var u := Aggregate(d.records, jobStart, d.totalMem);
      && r.Ok? && r.value.count == 1
      && r.value.load == u.load
      && r.value.peakGiB == u.peakMem as real / BytesPerGiB
      && r.value.minTotalGiB == d.totalMem as real / BytesPerGiB
  {
    var u := Aggregate(d.records, jobStart, d.totalMem);
    var us := Usages([d], jobStart);
    assert us == [u];
    assert MaxPeak(us) == u.peakMem;
    assert MinTotal(us) == d.totalMem;
    assert LoadsOf(us) == [u.load];
    assert SumReal([u.load]) == u.load + SumReal([]);
  }

  /** The reported peak is one device's peak, and the reported smallest
      total is one device's total. */
  lemma ExtremesAttained(baseline: seq<int>, devices: seq<Device>, jobStart: int)
    requires devices != []
    ensures var r := GpuStop(Some(baseline), devices, jobStart);
      && r.Ok?
      && (exists i :: 0 <= i < |devices| &&
            r.value.peakGiB == Aggregate(devices[i].records, jobStart, devices[i].totalMem).peakMem as real / BytesPerGiB)
      && (exists i :: 0 <= i < |devices| && r.value.minTotalGiB == devices[i].totalMem as real / BytesPerGiB)
  {
    var us := Usages(devices, jobStart);
    StopFolds(baseline, devices, jobStart);
    var f := GpuStop(Some(baseline), devices, jobStart).value;
    var ip := PeakAttained(us, f.energyKWh);
    var it := TotalAttained(us, f.energyKWh);
    assert us[ip] == Aggregate(devices[ip].records, jobStart, devices[ip].totalMem);
    assert us[it].totalMem == devices[it].totalMem;
  }

  lemma PeakAttained(us: seq<Usage>, energy: real) returns (i: nat)
    requires us != []
    ensures i < |us| && Fold(us, energy).peakGiB == us[i].peakMem as real / BytesPerGiB
  {
    var f := Fold(us, energy);
    i :| 0 <= i < |us| && f.peakGiB == us[i].peakMem as real / BytesPerGiB;
  }

  lemma TotalAttained(us: seq<Usage>, energy: real) returns (i: nat)
    requires us != []
    ensures i < |us| && Fold(us, energy).minTotalGiB == us[i].totalMem as real / BytesPerGiB
  {
    var f := Fold(us, energy);
    i :| 0 <= i < |us| && f.minTotalGiB == us[i].totalMem as real / BytesPerGiB;
  }

  /** With a baseline and a device, the stop is the fold of the devices'
      figures. */
  lemma StopFolds(baseline: seq<int>, devices: seq<Device>, jobStart: int)
    requires devices != []
    ensures var r := GpuStop(Some(baseline), devices, jobStart);
      r.Ok? && r.value == Fold(Usages(devices, jobStart), r.value.energyKWh)
  {
  }

  lemma {:induction false} IdleLoads(us: seq<Usage>, devices: seq<Device>, jobStart: int)
    requires us == Usages(devices, jobStart)
    requires forall i :: 0 <= i < |devices| ==> Kept(devices[i].records, jobStart) == []
    ensures SumReal(LoadsOf(us)) == 0.0
  {
    if us != [] {
      assert us[1..] == Usages(devices[1..], jobStart);
      assert LoadsOf(us)[1..] == LoadsOf(us[1..]);
      IdleLoads(us[1..], devices[1..], jobStart);
    }
  }

  /** The figures of a concatenation of device lists are the two lists'
      figures, concatenated. */
  lemma {:induction false} UsagesConcat(a: seq<Device>, b: seq<Device>, jobStart: int)
    ensures Usages(a + b, jobStart) == Usages(a, jobStart) + Usages(b, jobStart)
  {
    if a == [] {
      assert a + b == b;
    } else {
      assert (a + b)[1..] == a[1..] + b;
      UsagesConcat(a[1..], b, jobStart);
    }
  }

  lemma LoadsOfConcat(xs: seq<Usage>, ys: seq<Usage>)
    ensures LoadsOf(xs + ys) == LoadsOf(xs) + LoadsOf(ys)
  {
    assert forall i :: 0 <= i < |xs| ==> (xs + ys)[i] == xs[i];
    assert forall i :: |xs| <= i < |xs + ys| ==> (xs + ys)[i] == ys[i - |xs|];
  }

  /** The reported load is additive over devices: the load of two groups of
      devices together is the sum of the loads reported for each group. */
  lemma LoadsAdd(baseline: seq<int>, a: seq<Device>, b: seq<Device>, jobStart: int)
    requires a != [] && b != []
    ensures var r, ra, rb := GpuStop(Some(baseline), a + b, jobStart),
                            GpuStop(Some(baseline), a, jobStart), GpuStop(Some(baseline), b, jobStart);
      r.Ok? && ra.Ok? && rb.Ok? && r.value.load == ra.value.load + rb.value.load
  {
    UsagesConcat(a, b, jobStart);
    LoadsOfConcat(Usages(a, jobStart), Usages(b, jobStart));
    SumRealConcat(LoadsOf(Usages(a, jobStart)), LoadsOf(Usages(b, jobStart)));
  }
}

=== FILE: gpuusage.dfy ===
/** `NVMLStats.usage_stats`: the per-process accounting records of one GPU
    folded into an average load and a peak memory figure.

    The records kept are those that started at or after the job. Their start
    and end times, sorted, cut the time line into consecutive splits; over
    each split every record whose interval covers it contributes its
    utilisation and its memory. The load is the utilisation-weighted length
    of the splits, over 100, over the window from the first to the last
    split point (at least 1). The peak is the largest per-split memory sum.

    Coverage is closed at both ends, so two records where one ends exactly
    when the other starts both cover the zero-width split at that instant,
    and their memory is summed there (see `TouchingRecordsAddUp`). */
module GpuUsage {
  import opened Sorting

  /** One process's accounting entry: start time, duration, average
      utilisation in percent, and maximum memory in bytes. */
  datatype Record = Record(startTime: int, time: nat, gpuUtilization: nat, maxMemoryUsage: nat)

  function EndTime(s: Record): int {
    s.startTime + s.time
  }

  /** The records that started at or after the job, in their order: every
      copy of a started record is kept, and nothing else. */
  function Kept(stats: seq<Record>, jobStart: int): (r: seq<Record>)
    ensures |r| <= |stats|
    ensures forall x :: multiset(r)[x] == if x.startTime >= jobStart then multiset(stats)[x] else 0
  {
    if stats == [] then []
    else
      var init := Kept(stats[..|stats| - 1], jobStart);
      var last := stats[|stats| - 1];
      assert stats == stats[..|stats| - 1] + [last];
      assert multiset(stats) == multiset(stats[..|stats| - 1]) + multiset{last};
      if last.startTime >= jobStart then init + [last] else init
  }

  /** A record is kept exactly when it is one of the device's records and
      started no earlier than the job. */
  lemma {:induction false} KeptMembers(stats: seq<Record>, jobStart: int, s: Record)
    ensures s in Kept(stats, jobStart) <==> s in stats && s.startTime >= jobStart
  {
    if stats != [] {
      var init := stats[..|stats| - 1];
      var last := stats[|stats| - 1];
      assert stats == init + [last];
      KeptMembers(init, jobStart, s);
    }
  }

  function Starts(stats: seq<Record>): (r: seq<int>)
    ensures |r| == |stats|
    ensures forall p :: 0 <= p < |stats| ==> r[p] == stats[p].startTime
  {
    if stats == [] then [] else [stats[0].startTime] + Starts(stats[1..])
  }

  function Ends(stats: seq<Record>): (r: seq<int>)
    ensures |r| == |stats|
    ensures forall p :: 0 <= p < |stats| ==> r[p] == EndTime(stats[p])
  {
    if stats == [] then [] else [EndTime(stats[0])] + Ends(stats[1..])
  }

  /** Every start, then every end. */
  function Endpoints(stats: seq<Record>): seq<int> {
    Starts(stats) + Ends(stats)
  }

  /** The split points: all endpoints in ascending order, repeats kept. */
  function Splits(stats: seq<Record>): (xs: seq<int>)
    ensures Sorted(xs)
    ensures |xs| == 2 * |stats|
    ensures multiset(xs) == multiset(Endpoints(stats))
  {
    var xs := Sort(Endpoints(stats));
    assert |xs| == |multiset(xs)| == |multiset(Endpoints(stats))| == |Endpoints(stats)|;
    xs
  }

  /** The number of consecutive split pairs. */
  function Pairs(xs: seq<int>): nat {
    if |xs| == 0 then 0 else |xs| - 1
  }

  /** The record is running at time `t`, counting both its start and its
      end as running. */
  predicate Running(s: Record, t: int) {
    s.startTime <= t <= EndTime(s)
  }

  /** A record covers the split from `a` to `b` when it started no later
      than `a` and ended no earlier than `b`: for a split in order, exactly
      when it is running at every moment of the split, ends included. */
  predicate Covers(s: Record, a: int, b: int): (r: bool)
    ensures a <= b ==> (r <==> forall t :: a <= t <= b ==> Running(s, t))
  {
    assert a <= b ==> Running(s, a) && Running(s, b) ==> s.startTime <= a && EndTime(s) >= b;
    s.startTime <= a && EndTime(s) >= b
  }

  /** Summed utilisation of the records covering a split. */
  function UtilAt(stats: seq<Record>, a: int, b: int): nat {
    if stats == [] then 0
    else
      var last := stats[|stats| - 1];
      UtilAt(stats[..|stats| - 1], a, b) + if Covers(last, a, b) then last.gpuUtilization else 0
  }

  /** Summed memory of the records covering a split. */
  function MemAt(stats: seq<Record>, a: int, b: int): nat {
    if stats == [] then 0
    else
      var last := stats[|stats| - 1];
      MemAt(stats[..|stats| - 1], a, b) + if Covers(last, a, b) then last.maxMemoryUsage else 0
  }

  /** Utilisation times length, summed over the first `n` split pairs. */
  function Weighted(stats: seq<Record>, xs: seq<int>, n: nat): int
    requires n == 0 || n < |xs|
  {
    if n == 0 then 0
    else Weighted(stats, xs, n - 1) + UtilAt(stats, xs[n - 1], xs[n]) * (xs[n] - xs[n - 1])
  }

  /** The largest per-split memory sum over the first `n` split pairs, or 0. */
  function Peak(stats: seq<Record>, xs: seq<int>, n: nat): nat
    requires n == 0 || n < |xs|
  {
    if n == 0 then 0
    else
      var m := MemAt(stats, xs[n - 1], xs[n]);
      var p := Peak(stats, xs, n - 1);
      if p >= m then p else m
  }

  /** The memory sums of the first `n` split pairs, in time order. */
  function SplitMemsUpTo(stats: seq<Record>, xs: seq<int>, n: nat): (r: seq<nat>)
    requires n == 0 || n < |xs|
    ensures |r| == n
    ensures forall k :: 0 <= k < n ==> r[k] == MemAt(stats, xs[k], xs[k + 1])
  {
    if n == 0 then [] else SplitMemsUpTo(stats, xs, n - 1) + [MemAt(stats, xs[n - 1], xs[n])]
  }

  /** The memory sum of every split of the kept records, in time order. */
  function SplitMems(kept: seq<Record>): (r: seq<nat>)
    ensures |r| == Pairs(Splits(kept))
    ensures forall k :: 0 <= k < |r| ==> r[k] == MemAt(kept, Splits(kept)[k], Splits(kept)[k + 1])
  {
    SplitMemsUpTo(kept, Splits(kept), Pairs(Splits(kept)))
  }

  // ---------------------------------------------------------------------
  // Reference quantities, defined record by record.

  /** Utilisation-weighted busy time: the sum over the records of
      utilisation times duration, whatever their overlaps. */
  function Work(stats: seq<Record>): nat {
    if stats == [] then 0
    else
      var last := stats[|stats| - 1];
      Work(stats[..|stats| - 1]) + last.gpuUtilization * last.time
  }

  /** The sum of every record's memory. */
  function TotalMem(stats: seq<Record>): nat {
    if stats == [] then 0
    else TotalMem(stats[..|stats| - 1]) + stats[|stats| - 1].maxMemoryUsage
  }

  function MinStart(stats: seq<Record>): (m: int)
    requires stats != []
    ensures forall p :: 0 <= p < |stats| ==> m <= stats[p].startTime
    ensures exists p :: 0 <= p < |stats| && m == stats[p].startTime
  {
    if |stats| == 1 then stats[0].startTime
    else
      var rest := MinStart(stats[1..]);
      assert forall p :: 1 <= p < |stats| ==> stats[p] == stats[1..][p - 1];
      if stats[0].startTime <= rest then stats[0].startTime else rest
  }

  function MaxEnd(stats: seq<Record>): (m: int)
    requires stats != []
    ensures forall p :: 0 <= p < |stats| ==> EndTime(stats[p]) <= m
    ensures exists p :: 0 <= p < |stats| && m == EndTime(stats[p])
  {
    if |stats| == 1 then EndTime(stats[0])
    else
      var rest := MaxEnd(stats[1..]);
      assert forall p :: 1 <= p < |stats| ==> stats[p] == stats[1..][p - 1];
      if EndTime(stats[0]) >= rest then EndTime(stats[0]) else rest
  }

  /** The denominator of the load: the span from the earliest kept start
      to the latest kept end, but at least 1. */
  function Window(stats: seq<Record>): (w: int)
    requires stats != []
    ensures w >= 1
  {
    var d := MaxEnd(stats) - MinStart(stats);
    if d >= 1 then d else 1
  }

  // ---------------------------------------------------------------------
  // The weighted sum is the total work.

  /** Every endpoint of every record is a split point. */
  predicate EndpointsIn(stats: seq<Record>, xs: seq<int>) {
    forall p :: 0 <= p < |stats| ==> stats[p].startTime in xs && EndTime(stats[p]) in xs
  }

  /** `x` clamped into the record's interval. */
  function Clamp(s: Record, x: int): int {
    if x < s.startTime then s.startTime else if x > EndTime(s) then EndTime(s) else x
  }

  /** The length of the splits among the first `n` that a record covers. */
  function CoveredLength(s: Record, xs: seq<int>, n: nat): int
    requires n == 0 || n < |xs|
  {
    if n == 0 then 0
    else CoveredLength(s, xs, n - 1) + if Covers(s, xs[n - 1], xs[n]) then xs[n] - xs[n - 1] else 0
  }

  /** Over one split, a record whose endpoints are split points contributes
      the split's length when it covers the split and nothing otherwise,
      which is how much the split moves the clamped position. */
  lemma SplitContribution(s: Record, xs: seq<int>, k: nat)
    requires Sorted(xs) && k + 1 < |xs|
    requires s.startTime in xs && EndTime(s) in xs
    ensures (if Covers(s, xs[k], xs[k + 1]) then xs[k + 1] - xs[k] else 0) == Clamp(s, xs[k + 1]) - Clamp(s, xs[k])
  {
    var i :| 0 <= i < |xs| && xs[i] == s.startTime;
    var j :| 0 <= j < |xs| && xs[j] == EndTime(s);
    if s.startTime > xs[k] {
      assert i > k;
      assert s.startTime >= xs[k + 1];
    } else if EndTime(s) < xs[k + 1] {
      assert j < k + 1;
      assert EndTime(s) <= xs[k];
    }
  }

  /** The covered lengths telescope. */
  lemma {:induction false} CoveredTelescopes(s: Record, xs: seq<int>, n: nat)
    requires Sorted(xs) && n < |xs|
    requires s.startTime in xs && EndTime(s) in xs
    ensures CoveredLength(s, xs, n) == Clamp(s, xs[n]) - Clamp(s, xs[0])
  {
    if n > 0 {
      CoveredTelescopes(s, xs, n - 1);
      SplitContribution(s, xs, n - 1);
    }
  }

  /** Over all the splits, a record covers exactly its own duration. */
  lemma CoveredIsDuration(s: Record, xs: seq<int>)
    requires Sorted(xs) && xs != []
    requires s.startTime in xs && EndTime(s) in xs
    ensures CoveredLength(s, xs, |xs| - 1) == s.time
  {
    CoveredTelescopes(s, xs, |xs| - 1);
    FirstIsLeast(xs, s.startTime);
    LastIsGreatest(xs, EndTime(s));
  }

  /** One more record adds its utilisation times its covered length. */
  lemma {:induction false} WeightedSnoc(stats: seq<Record>, s: Record, xs: seq<int>, n: nat)
    requires n == 0 || n < |xs|
    ensures Weighted(stats + [s], xs, n) == Weighted(stats, xs, n) + s.gpuUtilization * CoveredLength(s, xs, n)
  {
    if n > 0 {
      WeightedSnoc(stats, s, xs, n - 1);
      var a, b := xs[n - 1], xs[n];
      UtilAtSnoc(stats, s, a, b);
      var c := Covers(s, a, b);
      StepAlgebra(Weighted(stats + [s], xs, n - 1), Weighted(stats, xs, n - 1),
                  UtilAt(stats + [s], a, b), UtilAt(stats, a, b), s.gpuUtilization,
                  CoveredLength(s, xs, n - 1), CoveredLength(s, xs, n), b - a, c);
    }
  }

  lemma UtilAtSnoc(stats: seq<Record>, s: Record, a: int, b: int)
    ensures UtilAt(stats + [s], a, b) == UtilAt(stats, a, b) + if Covers(s, a, b) then s.gpuUtilization else 0
  {
    assert (stats + [s])[..|stats|] == stats;
  }

  /** The arithmetic of one step of `WeightedSnoc`, on plain numbers. */
  lemma StepAlgebra(w1: int, w0: int, u1: int, u0: int, g: int, span0: int, span1: int, d: int, covers: bool)
    requires w1 == w0 + g * span0
    requires u1 == u0 + if covers then g else 0
    requires span1 == span0 + if covers then d else 0
    ensures w1 + u1 * d == (w0 + u0 * d) + g * span1
  {
    if covers {
      assert (u0 + g) * d == u0 * d + g * d;
      assert g * (span0 + d) == g * span0 + g * d;
    }
  }

  lemma {:induction false} WeightedNone(xs: seq<int>, n: nat)
    requires n == 0 || n < |xs|
    ensures Weighted([], xs, n) == 0
  {
    if n > 0 {
      WeightedNone(xs, n - 1);
    }
  }

  /** However the records overlap, the split-weighted utilisation equals
      the sum of each record's utilisation times its duration, provided
      every endpoint is among the sorted split points. */
  lemma {:induction false} WeightedIsWork(stats: seq<Record>, xs: seq<int>)
    requires Sorted(xs) && EndpointsIn(stats, xs)
    ensures Weighted(stats, xs, Pairs(xs)) == Work(stats)
  {
    if stats == [] {
      WeightedNone(xs, Pairs(xs));
    } else {
      var init, last := stats[..|stats| - 1], stats[|stats| - 1];
      assert stats == init + [last];
      assert EndpointsIn(init, xs);
      WeightedIsWork(init, xs);
      WeightedSnoc(init, last, xs, Pairs(xs));
      CoveredIsDuration(last, xs);
    }
  }

  /** The split points of a list are exactly its starts and ends. */
  lemma SplitMembers(stats: seq<Record>, v: int)
    ensures v in Splits(stats) <==> exists p :: 0 <= p < |stats| && (v == stats[p].startTime || v == EndTime(stats[p]))
  {
    var xs, e := Splits(stats), Endpoints(stats);
    assert v in xs <==> v in e by {
      assert v in xs <==> v in multiset(xs);
      assert v in e <==> v in multiset(e);
    }
    EndpointMembers(stats, v);
  }

  lemma EndpointMembers(stats: seq<Record>, v: int)
    ensures v in Endpoints(stats) <==> exists p :: 0 <= p < |stats| && (v == stats[p].startTime || v == EndTime(stats[p]))
  {
    var e := Endpoints(stats);
    if v in e {
      var k :| 0 <= k < |e| && e[k] == v;
      if k < |stats| {
        EndpointAt(stats, k);
      } else {
        EndpointAt(stats, k - |stats|);
      }
    }
    if exists p :: 0 <= p < |stats| && (v == stats[p].startTime || v == EndTime(stats[p])) {
      var p :| 0 <= p < |stats| && (v == stats[p].startTime || v == EndTime(stats[p]));
      EndpointAt(stats, p);
    }
  }

  lemma OwnEndpoints(stats: seq<Record>)
    ensures EndpointsIn(stats, Splits(stats))
  {
    forall p | 0 <= p < |stats|
      ensures stats[p].startTime in Splits(stats) && EndTime(stats[p]) in Splits(stats)
    {
      SplitMembers(stats, stats[p].startTime);
      SplitMembers(stats, EndTime(stats[p]));
    }
  }

  /** The first split point is the earliest start and the last one the
      latest end. */
  lemma SplitBounds(stats: seq<Record>)
    requires stats != []
    ensures var xs := Splits(stats);
      xs[0] == MinStart(stats) && xs[|xs| - 1] == MaxEnd(stats)
  {
    FirstSplit(stats);
    LastSplit(stats);
  }

  lemma FirstSplit(stats: seq<Record>)
    requires stats != []
    ensures Splits(stats)[0] == MinStart(stats)
  {
    var xs := Splits(stats);
    var m := MinStart(stats);
    var p :| 0 <= p < |stats| && m == stats[p].startTime;
    OwnEndpoints(stats);
    assert stats[p].startTime in xs;
    FirstIsLeast(xs, m);
    var q := SplitOwner(stats, 0);
    assert m <= stats[q].startTime <= EndTime(stats[q]);
  }

  lemma LastSplit(stats: seq<Record>)
    requires stats != []
    ensures var xs := Splits(stats); xs[|xs| - 1] == MaxEnd(stats)
  {
    var xs := Splits(stats);
    var m := MaxEnd(stats);
    var p :| 0 <= p < |stats| && m == EndTime(stats[p]);
    OwnEndpoints(stats);
    assert EndTime(stats[p]) in xs;
    LastIsGreatest(xs, m);
    var q := SplitOwner(stats, |xs| - 1);
    var last := xs[|xs| - 1];
    assert m <= last;
    assert last <= m by {
      assert stats[q].startTime <= EndTime(stats[q]) <= m;
    }
  }

  /** Every split point is an endpoint of some record. */
  lemma SplitOwner(stats: seq<Record>, k: nat) returns (q: nat)
    requires k < 2 * |stats|
    ensures q < |stats|
    ensures Splits(stats)[k] == stats[q].startTime || Splits(stats)[k] == EndTime(stats[q])
  {
    var xs, e := Splits(stats), Endpoints(stats);
    assert xs[k] in multiset(xs);
    assert xs[k] in e;
    EndpointMembers(stats, xs[k]);
    q :| 0 <= q < |stats| && (xs[k] == stats[q].startTime || xs[k] == EndTime(stats[q]));
  }

  // ---------------------------------------------------------------------
  // The peak.

  /** A covering record's memory is part of the split's sum. */
  lemma {:induction false} MemAtLeast(stats: seq<Record>, a: int, b: int, p: nat)
    requires p < |stats| && Covers(stats[p], a, b)
    ensures stats[p].maxMemoryUsage <= MemAt(stats, a, b)
  {
    if p < |stats| - 1 {
      MemAtLeast(stats[..|stats| - 1], a, b, p);
    }
  }

  /** Two different covering records both count in the split's sum. */
  lemma {:induction false} MemAtPair(stats: seq<Record>, a: int, b: int, p: nat, q: nat)
    requires p < q < |stats| && Covers(stats[p], a, b) && Covers(stats[q], a, b)
    ensures stats[p].maxMemoryUsage + stats[q].maxMemoryUsage <= MemAt(stats, a, b)
  {
    var init := stats[..|stats| - 1];
    if q < |stats| - 1 {
      MemAtPair(init, a, b, p, q);
    } else {
      MemAtLeast(init, a, b, p);
    }
  }

  /** No split holds more memory than all the records together. */
  lemma {:induction false} MemAtMost(stats: seq<Record>, a: int, b: int)
    ensures MemAt(stats, a, b) <= TotalMem(stats)
  {
    if stats != [] {
      MemAtMost(stats[..|stats| - 1], a, b);
    }
  }

  lemma {:induction false} PeakAtLeast(stats: seq<Record>, xs: seq<int>, n: nat, k: nat)
    requires n < |xs| && k < n
    ensures MemAt(stats, xs[k], xs[k + 1]) <= Peak(stats, xs, n)
  {
    if k < n - 1 {
      PeakAtLeast(stats, xs, n - 1, k);
    }
  }

  /** The running maximum is one of the memory sums it ranges over. */
  lemma {:induction false} PeakIsOne(stats: seq<Record>, xs: seq<int>, n: nat)
    requires 0 < n < |xs|
    ensures Peak(stats, xs, n) in SplitMemsUpTo(stats, xs, n)
  {
    var ms := SplitMemsUpTo(stats, xs, n);
    var m := MemAt(stats, xs[n - 1], xs[n]);
    assert ms == SplitMemsUpTo(stats, xs, n - 1) + [m];
    assert ms[n - 1] == m;
    if n > 1 {
      PeakIsOne(stats, xs, n - 1);
      var p := Peak(stats, xs, n - 1);
      var i :| 0 <= i < n - 1 && SplitMemsUpTo(stats, xs, n - 1)[i] == p;
      assert ms[i] == p;
    } else {
      assert Peak(stats, xs, 0) == 0;
    }
  }

  lemma {:induction false} PeakAtMost(stats: seq<Record>, xs: seq<int>, n: nat)
    requires n == 0 || n < |xs|
    ensures Peak(stats, xs, n) <= TotalMem(stats)
  {
    if n > 0 {
      PeakAtMost(stats, xs, n - 1);
      MemAtMost(stats, xs[n - 1], xs[n]);
    }
  }

  /** A value at two different positions of a list occurs in it at least
      twice. */
  lemma CountTwo(xs: seq<int>, i: nat, j: nat)
    requires i < j < |xs| && xs[i] == xs[j]
    ensures multiset(xs)[xs[i]] >= 2
  {
    assert xs == xs[..j] + xs[j..];
    assert xs[i] in xs[..j];
    assert xs[j] in xs[j..];
  }

  /** Two endpoint positions, given by their indices among the starts and
      the ends, hold the same time: that time is a repeated split point, so
      two consecutive split points equal it. */
  lemma RepeatedSplit(stats: seq<Record>, e1: nat, e2: nat, v: int) returns (k: nat)
    requires e1 < e2 < 2 * |stats| && Endpoints(stats)[e1] == v && Endpoints(stats)[e2] == v
    ensures k + 1 < |Splits(stats)| && Splits(stats)[k] == v && Splits(stats)[k + 1] == v
  {
    CountTwo(Endpoints(stats), e1, e2);
    k := AdjacentRepeat(Splits(stats), v);
  }

  /** Where a record's start and end sit among the endpoints. */
  lemma EndpointAt(stats: seq<Record>, p: nat)
    requires p < |stats|
    ensures Endpoints(stats)[p] == stats[p].startTime
    ensures Endpoints(stats)[|stats| + p] == EndTime(stats[p])
  {
  }

  /** In an ascending list, a value held twice is held at two consecutive
      positions. */
  lemma AdjacentRepeat(xs: seq<int>, v: int) returns (k: nat)
    requires Sorted(xs) && multiset(xs)[v] >= 2
    ensures k + 1 < |xs| && xs[k] == v && xs[k + 1] == v
  {
    var i, j := TwoPositions(xs, v);
    assert xs[i] <= xs[i + 1] <= xs[j];
    k := i;
  }

  /** Every kept record covers at least one split. */
  lemma CoveredSplit(stats: seq<Record>, p: nat) returns (k: nat)
    requires p < |stats|
    ensures var xs := Splits(stats);
      k + 1 < |xs| && Covers(stats[p], xs[k], xs[k + 1])
  {
    var xs := Splits(stats);
    var s := stats[p];
    if s.time == 0 {
      EndpointAt(stats, p);
      k := RepeatedSplit(stats, p, |stats| + p, s.startTime);
    } else {
      OwnEndpoints(stats);
      var i :| 0 <= i < |xs| && xs[i] == s.startTime;
      var j :| 0 <= j < |xs| && xs[j] == EndTime(s);
      assert i < j;
      assert xs[i + 1] <= xs[j];
      k := i;
    }
  }

  /** The peak is at least any single kept record's memory. */
  lemma PeakCoversRecord(stats: seq<Record>, p: nat)
    requires p < |stats|
    ensures var xs := Splits(stats);
      stats[p].maxMemoryUsage <= Peak(stats, xs, Pairs(xs))
  {
    var xs := Splits(stats);
    var k := CoveredSplit(stats, p);
    MemAtLeast(stats, xs[k], xs[k + 1], p);
    PeakAtLeast(stats, xs, Pairs(xs), k);
  }

  /** Two records where one ends exactly when the other starts never ran
      at the same time, yet both cover the zero-width split at that instant,
      so the peak counts their memory together. */
  lemma TouchingRecordsAddUp(stats: seq<Record>, p: nat, q: nat)
    requires p < |stats| && q < |stats| && p != q
    requires EndTime(stats[p]) == stats[q].startTime
    ensures var xs := Splits(stats);
      stats[p].maxMemoryUsage + stats[q].maxMemoryUsage <= Peak(stats, xs, Pairs(xs))
  {
    var t := stats[q].startTime;
    EndpointAt(stats, p);
    EndpointAt(stats, q);
    var k := RepeatedSplit(stats, q, |stats| + p, t);
    var xs := Splits(stats);
    assert Covers(stats[p], xs[k], xs[k + 1]) && Covers(stats[q], xs[k], xs[k + 1]);
    SharedSplit(stats, xs, k, p, q);
  }

  /** Two records apart in time never share a split, so the peak is the
      larger of their two memories, not their sum. */
  lemma SeparateRecords(a: Record, b: Record, jobStart: int, totalMem: nat)
    requires jobStart <= a.startTime && EndTime(a) < b.startTime
    ensures var m := Aggregate([a, b], jobStart, totalMem).peakMem;
      m == if a.maxMemoryUsage >= b.maxMemoryUsage then a.maxMemoryUsage else b.maxMemoryUsage
  {
    KeptTwo(a, b, jobStart);
    assert Aggregate([a, b], jobStart, totalMem) == AggregateKept([a, b], totalMem);
    SeparatePeak(a, b, totalMem);
  }

  lemma SeparatePeak(a: Record, b: Record, totalMem: nat)
    requires EndTime(a) < b.startTime
    ensures var m := AggregateKept([a, b], totalMem).peakMem;
      m == if a.maxMemoryUsage >= b.maxMemoryUsage then a.maxMemoryUsage else b.maxMemoryUsage
  {
    SeparateMems(a, b);
    var r := AggregateKept([a, b], totalMem);
    var ms := SplitMems([a, b]);
    assert r.peakMem in ms;
    assert ms[0] <= r.peakMem && ms[2] <= r.peakMem;
  }

  /** The splits of two records apart in time: the first record alone, the
      gap with no record, then the second record alone. */
  lemma SeparateMems(a: Record, b: Record)
    requires EndTime(a) < b.startTime
    ensures SplitMems([a, b]) == [a.maxMemoryUsage, 0, b.maxMemoryUsage]
  {
    var ys := SeparateSplits(a, b);
    assert Pairs(ys) == 3;
    GapMems(a, b, ys);
  }

  lemma GapMems(a: Record, b: Record, ys: seq<int>)
    requires EndTime(a) < b.startTime
    requires ys == [a.startTime, EndTime(a), b.startTime, EndTime(b)]
    ensures SplitMemsUpTo([a, b], ys, 3) == [a.maxMemoryUsage, 0, b.maxMemoryUsage]
  {
    var ms := SplitMemsUpTo([a, b], ys, 3);
    MemAtTwo(a, b, ys[0], ys[1]);
    MemAtTwo(a, b, ys[1], ys[2]);
    MemAtTwo(a, b, ys[2], ys[3]);
    assert ms[0] == a.maxMemoryUsage && ms[1] == 0 && ms[2] == b.maxMemoryUsage;
  }

  lemma SeparateSplits(a: Record, b: Record) returns (ys: seq<int>)
    requires EndTime(a) < b.startTime
    ensures ys == Splits([a, b]) == [a.startTime, EndTime(a), b.startTime, EndTime(b)]
  {
    ys := [a.startTime, EndTime(a), b.startTime, EndTime(b)];
    var xs := Splits([a, b]);
    EndpointsOfTwo(a, b);
    SwapMiddle(a.startTime, EndTime(a), b.startTime, EndTime(b));
    assert multiset(xs) == multiset(ys);
    SortedFour(a.startTime, EndTime(a), b.startTime, EndTime(b));
    SortedUnique(xs, ys);
  }

  lemma EndpointsOfTwo(a: Record, b: Record)
    ensures Endpoints([a, b]) == [a.startTime, b.startTime, EndTime(a), EndTime(b)]
  {
    assert Starts([a, b]) == [a.startTime, b.startTime];
    assert Ends([a, b]) == [EndTime(a), EndTime(b)];
  }

  lemma SortedFour(w: int, x: int, y: int, z: int)
    requires w <= x <= y <= z
    ensures Sorted([w, x, y, z])
  {
  }

  lemma SwapMiddle(w: int, x: int, y: int, z: int)
    ensures multiset([w, y, x, z]) == multiset([w, x, y, z])
  {
  }

  lemma MemAtTwo(a: Record, b: Record, x: int, y: int)
    ensures MemAt([a, b], x, y)
      == (if Covers(a, x, y) then a.maxMemoryUsage else 0) + (if Covers(b, x, y) then b.maxMemoryUsage else 0)
  {
    assert [a, b][..1] == [a] && [a][..0] == [];
    assert MemAt([a], x, y) == if Covers(a, x, y) then a.maxMemoryUsage else 0;
  }

  /** Two records that both started during the job are both kept. */
  lemma KeptTwo(a: Record, b: Record, jobStart: int)
    requires a.startTime >= jobStart && b.startTime >= jobStart
    ensures Kept([a, b], jobStart) == [a, b]
  {
    assert [a, b][..1] == [a] && [a][..0] == [];
    assert Kept([a], jobStart) == [a];
  }

  /** Two different records covering the same split both count in the peak. */
  lemma SharedSplit(stats: seq<Record>, xs: seq<int>, k: nat, p: nat, q: nat)
    requires k + 1 < |xs| && p < |stats| && q < |stats| && p != q
    requires Covers(stats[p], xs[k], xs[k + 1]) && Covers(stats[q], xs[k], xs[k + 1])
    ensures stats[p].maxMemoryUsage + stats[q].maxMemoryUsage <= Peak(stats, xs, Pairs(xs))
  {
    if p < q {
      MemAtPair(stats, xs[k], xs[k + 1], p, q);
    } else {
      MemAtPair(stats, xs[k], xs[k + 1], q, p);
    }
    PeakAtLeast(stats, xs, Pairs(xs), k);
  }

  // ---------------------------------------------------------------------
  // The aggregate.

  /** One device's figures: average load (1.0 is one fully busy GPU), peak
      memory and total memory, in bytes. */
  datatype Usage = Usage(load: real, peakMem: nat, totalMem: nat)

  /** Weighted busy time (percent times time units) as a number of fully
      busy devices over a window: divided by 100, then by the window. */
  function LoadOf(work: int, window: int): real
    requires window >= 1
  {
    work as real / 100.0 / window as real
  }

  /** `usage_stats` on the device's records and total memory: the records
      that started at or after `jobStart` are kept and aggregated. */
  function Aggregate(stats: seq<Record>, jobStart: int, totalMem: nat): (r: Usage)
    ensures r.totalMem == totalMem
    ensures Kept(stats, jobStart) == [] ==> r.load == 0.0 && r.peakMem == 0
    ensures var kept := Kept(stats, jobStart);
      kept != [] ==> r.load == LoadOf(Work(kept), Window(kept))
    ensures var kept := Kept(stats, jobStart);
      forall p :: 0 <= p < |kept| ==> kept[p].maxMemoryUsage <= r.peakMem
    ensures r.peakMem <= TotalMem(Kept(stats, jobStart))
    ensures Kept(stats, jobStart) != [] ==> r.peakMem in SplitMems(Kept(stats, jobStart))
    ensures var ms := SplitMems(Kept(stats, jobStart));
      forall k :: 0 <= k < |ms| ==> ms[k] <= r.peakMem
  {
    var kept := Kept(stats, jobStart);
    AggregateKept(kept, totalMem)
  }

  /** The aggregation proper, on the kept records. The load is the
      utilisation-weighted busy time over 100 over the window. The peak is
      the largest memory sum over the splits (0 with no split), so it lies
      between the largest single record's memory and the sum of all. */
  function AggregateKept(kept: seq<Record>, totalMem: nat): (r: Usage)
    ensures r.totalMem == totalMem
    ensures kept == [] ==> r.load == 0.0 && r.peakMem == 0
    ensures kept != [] ==> r.load == LoadOf(Work(kept), Window(kept))
    ensures forall p :: 0 <= p < |kept| ==> kept[p].maxMemoryUsage <= r.peakMem
    ensures r.peakMem <= TotalMem(kept)
    ensures kept != [] ==> r.peakMem in SplitMems(kept)
    ensures forall k :: 0 <= k < |SplitMems(kept)| ==> SplitMems(kept)[k] <= r.peakMem
  {
    var xs := Splits(kept);
    var n := Pairs(xs);
    var w := Weighted(kept, xs, n);
    var peak := Peak(kept, xs, n);
    LoadFacts(kept);
    PeakFacts(kept);
    assert kept != [] ==> w == Work(kept) && SplitWindow(xs) == Window(kept);
    Usage(SplitLoad(xs, w), peak, totalMem)
  }

  /** The span from the first to the last split point, at least 1. */
  function SplitWindow(xs: seq<int>): (d: int)
    requires xs != []
    ensures d >= 1 && d >= xs[|xs| - 1] - xs[0]
  {
    var d := xs[|xs| - 1] - xs[0];
    if d >= 1 then d else 1
  }

  /** The load over the split points: none without any, otherwise the
      weighted sum over 100 over the window. */
  function SplitLoad(xs: seq<int>, w: int): real {
    if xs == [] then 0.0 else LoadOf(w, SplitWindow(xs))
  }

  /** `usage_stats` step by step, as the source runs it: a filtering pass,
      the sort, then for each consecutive pair of split points one pass
      over the kept records. It computes exactly `Aggregate`. */
  method UsageStats(stats: seq<Record>, jobStart: int, totalMem: nat) returns (load: real, peakMem: nat, total: nat)
    ensures Usage(load, peakMem, total) == Aggregate(stats, jobStart, totalMem)
    ensures var kept := Kept(stats, jobStart);
      kept != [] ==> load == LoadOf(Work(kept), Window(kept))
    ensures var kept := Kept(stats, jobStart);
      forall p :: 0 <= p < |kept| ==> kept[p].maxMemoryUsage <= peakMem
    ensures Kept(stats, jobStart) != [] ==> peakMem in SplitMems(Kept(stats, jobStart))
    ensures var ms := SplitMems(Kept(stats, jobStart));
      forall k :: 0 <= k < |ms| ==> ms[k] <= peakMem
  {
    var kept := KeepStarted(stats, jobStart);
    var xs := Splits(kept);
    var util, peak := SplitPasses(kept, xs);
    load := SplitLoad(xs, util);
    peakMem, total := peak, totalMem;
    ghost var r := Aggregate(stats, jobStart, totalMem);
    assert r == AggregateKept(kept, totalMem);
    assert r.load == load && r.peakMem == peakMem;
  }

  /** The loop over consecutive split points: the weighted utilisation and
      the peak memory over all of them. */
  method SplitPasses(kept: seq<Record>, xs: seq<int>) returns (util: int, peak: nat)
    ensures util == Weighted(kept, xs, Pairs(xs))
    ensures peak == Peak(kept, xs, Pairs(xs))
    ensures forall k :: 0 <= k < Pairs(xs) ==> MemAt(kept, xs[k], xs[k + 1]) <= peak
  {
    util, peak := 0, 0;
    var k: nat := 0;
    while k + 1 < |xs|
      invariant k == 0 || k < |xs|
      invariant util == Weighted(kept, xs, k)
      invariant peak == Peak(kept, xs, k)
    {
      var u, m := SplitSums(kept, xs[k], xs[k + 1]);
      util := util + u * (xs[k + 1] - xs[k]);
      peak := if peak >= m then peak else m;
      k := k + 1;
    }
    assert k == Pairs(xs);
    forall j | 0 <= j < Pairs(xs) ensures MemAt(kept, xs[j], xs[j + 1]) <= peak {
      PeakAtLeast(kept, xs, Pairs(xs), j);
    }
  }

  /** The filtering pass: the records that started at or after the job. */
  method KeepStarted(stats: seq<Record>, jobStart: int) returns (kept: seq<Record>)
    ensures kept == Kept(stats, jobStart)
    ensures forall s :: s in kept ==> s in stats && s.startTime >= jobStart
  {
    kept := [];
    for i := 0 to |stats|
      invariant kept == Kept(stats[..i], jobStart)
    {
      assert stats[..i + 1][..i] == stats[..i];
      if stats[i].startTime >= jobStart {
        kept := kept + [stats[i]];
      }
    }
    assert stats[..|stats|] == stats;
    forall s | s in kept ensures s in stats && s.startTime >= jobStart {
      KeptMembers(stats, jobStart, s);
    }
  }

  /** One pass over the records for the split from `a` to `b`: the summed
      utilisation and memory of the records covering it. */
  method SplitSums(stats: seq<Record>, a: int, b: int) returns (u: nat, m: nat)
    ensures u == UtilAt(stats, a, b) && m == MemAt(stats, a, b)
    ensures forall p :: 0 <= p < |stats| && Covers(stats[p], a, b) ==> stats[p].maxMemoryUsage <= m
  {
    u, m := 0, 0;
    for j := 0 to |stats|
      invariant u == UtilAt(stats[..j], a, b) && m == MemAt(stats[..j], a, b)
    {
      assert stats[..j + 1][..j] == stats[..j];
      if stats[j].startTime <= a && stats[j].startTime + stats[j].time >= b {
        u := u + stats[j].gpuUtilization;
        m := m + stats[j].maxMemoryUsage;
      }
    }
    assert stats[..|stats|] == stats;
    forall p | 0 <= p < |stats| && Covers(stats[p], a, b) ensures stats[p].maxMemoryUsage <= m {
      MemAtLeast(stats, a, b, p);
    }
  }

  /** The quantities the load is computed from, in their reference form. */
  lemma LoadFacts(kept: seq<Record>)
    ensures var xs := Splits(kept);
      && (kept == [] <==> xs == [])
      && Weighted(kept, xs, Pairs(xs)) == Work(kept)
      && (kept != [] ==> xs[|xs| - 1] - xs[0] == MaxEnd(kept) - MinStart(kept))
  {
    var xs := Splits(kept);
    OwnEndpoints(kept);
    WeightedIsWork(kept, xs);
    if kept != [] {
      SplitBounds(kept);
    }
  }

  /** The peak's bounds, on the kept records. */
  lemma PeakFacts(kept: seq<Record>)
    ensures var xs := Splits(kept);
      && (forall p :: 0 <= p < |kept| ==> kept[p].maxMemoryUsage <= Peak(kept, xs, Pairs(xs)))
      && Peak(kept, xs, Pairs(xs)) <= TotalMem(kept)
      && (kept == [] ==> Peak(kept, xs, Pairs(xs)) == 0)
      && (kept != [] ==> Peak(kept, xs, Pairs(xs)) in SplitMems(kept))
      && (forall k :: 0 <= k < |SplitMems(kept)| ==> SplitMems(kept)[k] <= Peak(kept, xs, Pairs(xs)))
  {
    var xs := Splits(kept);
    var ms := SplitMems(kept);
    if kept != [] {
      PeakIsOne(kept, xs, Pairs(xs));
    }
    forall k | 0 <= k < |ms| ensures ms[k] <= Peak(kept, xs, Pairs(xs)) {
      PeakAtLeast(kept, xs, Pairs(xs), k);
    }
    forall p | 0 <= p < |kept| ensures kept[p].maxMemoryUsage <= Peak(kept, xs, Pairs(xs)) {
      PeakCoversRecord(kept, p);
    }
    PeakAtMost(kept, xs, Pairs(xs));
  }

  // ---------------------------------------------------------------------
  // Consequences.

  /** Filtering is idempotent: aggregating the kept records again gives the
      same figures. */
  lemma {:induction false} KeptTwice(stats: seq<Record>, jobStart: int, totalMem: nat)
    ensures Kept(Kept(stats, jobStart), jobStart) == Kept(stats, jobStart)
    ensures Aggregate(Kept(stats, jobStart), jobStart, totalMem) == Aggregate(stats, jobStart, totalMem)
  {
    KeptIdempotent(stats, jobStart);
  }

  lemma {:induction false} KeptIdempotent(stats: seq<Record>, jobStart: int)
    ensures Kept(Kept(stats, jobStart), jobStart) == Kept(stats, jobStart)
  {
    if stats != [] {
      var init, last := stats[..|stats| - 1], stats[|stats| - 1];
      KeptIdempotent(init, jobStart);
      var k := Kept(init, jobStart);
      if last.startTime >= jobStart {
        assert (k + [last])[..|k|] == k;
      }
    }
  }

  /** A single record of positive duration that started during the job
      gives its own utilisation over 100 as the load, and its memory as the
      peak. */
  lemma SingleRecord(s: Record, jobStart: int, totalMem: nat)
    requires s.startTime >= jobStart && s.time >= 1
    ensures var r := Aggregate([s], jobStart, totalMem);
      r.load == s.gpuUtilization as real / 100.0 && r.peakMem == s.maxMemoryUsage
  {
    assert [s][..0] == [];
    assert Kept([s], jobStart) == [s];
    assert Work([s]) == s.gpuUtilization * s.time;
    assert Window([s]) == s.time;
    assert TotalMem([s]) == s.maxMemoryUsage;
    ScaledLoad(s.gpuUtilization, s.time);
  }

  /** Two records over the same interval of positive length add their
      utilisations. */
  lemma SameInterval(a: Record, b: Record, jobStart: int, totalMem: nat)
    requires a.startTime == b.startTime >= jobStart && a.time == b.time >= 1
    ensures var r := Aggregate([a, b], jobStart, totalMem);
      r.load == (a.gpuUtilization + b.gpuUtilization) as real / 100.0
  {
    KeptTwo(a, b, jobStart);
    assert Aggregate([a, b], jobStart, totalMem) == AggregateKept([a, b], totalMem);
    SameLoad(a, b, totalMem);
  }

  lemma SameLoad(a: Record, b: Record, totalMem: nat)
    requires a.startTime == b.startTime && a.time == b.time >= 1
    ensures AggregateKept([a, b], totalMem).load == (a.gpuUtilization + b.gpuUtilization) as real / 100.0
  {
    var u := a.gpuUtilization + b.gpuUtilization;
    PairWork(a, b);
    PairWindow(a, b);
    ScaledLoad(u, a.time);
    var r := AggregateKept([a, b], totalMem);
    assert r.load == LoadOf(Work([a, b]), Window([a, b]));
    assert r.load == LoadOf(u * a.time, a.time);
  }

  lemma PairWork(a: Record, b: Record)
    requires a.time == b.time
    ensures Work([a, b]) == (a.gpuUtilization + b.gpuUtilization) * a.time
  {
    assert [a, b][..1] == [a] && [a][..0] == [];
    assert Work([a]) == a.gpuUtilization * a.time;
  }

  lemma PairWindow(a: Record, b: Record)
    requires a.startTime == b.startTime && a.time == b.time >= 1
    ensures Window([a, b]) == a.time
  {
    assert MinStart([a, b]) == a.startTime;
    assert MaxEnd([a, b]) == EndTime(a);
  }

  lemma ScaledLoad(u: nat, t: nat)
    requires t >= 1
    ensures LoadOf(u * t, t) == u as real / 100.0
  {
    assert (u * t) as real == u as real * t as real;
  }
}

=== FILE: lists.dfy ===
/** Sums over lists of numbers, as Python's `sum()`. */
module Lists {

  function Sum(xs: seq<int>): int {
    if xs == [] then 0 else xs[0] + Sum(xs[1..])
  }

  /** A list of zeros sums to zero. */
  lemma {:induction false} SumZero(xs: seq<int>)
    requires forall k :: 0 <= k < |xs| ==> xs[k] == 0
    ensures Sum(xs) == 0
  {
    if xs != [] {
      SumZero(xs[1..]);
    }
  }

  /** `sum()` over floats, with floats taken as exact reals. */
  function SumReal(xs: seq<real>): real {
    if xs == [] then 0.0 else xs[0] + SumReal(xs[1..])
  }

  /** Summing a concatenation is summing the two halves. */
  lemma {:induction false} SumRealConcat(xs: seq<real>, ys: seq<real>)
    ensures SumReal(xs + ys) == SumReal(xs) + SumReal(ys)
  {
    if xs == [] {
      assert xs + ys == ys;
    } else {
      assert (xs + ys)[1..] == xs[1..] + ys;
      SumRealConcat(xs[1..], ys);
    }
  }
}

=== FILE: pytext.dfy ===
/** The handful of Python string operations the profiler leans on to read
    cgroup files: `str.strip()`, `str.split(sep)`, `str.split()` and the
    built-in `int()` applied to a string. */
module PyText {
  import opened Results
  import opened Decimal

  /** Python's `str.isspace()` for one character: the Unicode white-space
      characters plus the ASCII information separators 0x1C-0x1F. */
  predicate IsSpace(c: char) {
    var k := c as int;
    || (0x09 <= k <= 0x0D)
    || (0x1C <= k <= 0x20)
    || k == 0x85 || k == 0xA0 || k == 0x1680
    || (0x2000 <= k <= 0x200A)
    || k == 0x2028 || k == 0x2029 || k == 0x202F || k == 0x205F || k == 0x3000
  }

  /** The ASCII information separators U+001C..U+001F. `str.isspace()`,
      and so `str.strip()` and `str.split()`, count them as white space, but
      `int()` skips only the other white-space characters and rejects these
      like any other stray character. */
  predicate IsInfoSeparator(c: char) {
    0x1C <= c as int <= 0x1F
  }

  predicate HasInfoSeparator(s: string) {
    s != [] && (IsInfoSeparator(s[0]) || HasInfoSeparator(s[1..]))
  }

  /** A string has an information separator exactly when one of its
      characters is one. */
  lemma {:induction false} HasInfoSeparatorAt(s: string)
    ensures HasInfoSeparator(s) <==> exists i :: 0 <= i < |s| && IsInfoSeparator(s[i])
  {
    if s != [] {
      HasInfoSeparatorAt(s[1..]);
      assert forall i :: 1 <= i < |s| ==> s[i] == s[1..][i - 1];
    }
  }

  predicate AllSpace(s: string) {
    forall i :: 0 <= i < |s| ==> IsSpace(s[i])
  }

  predicate NoSpace(s: string) {
    forall i :: 0 <= i < |s| ==> !IsSpace(s[i])
  }

  function TrimStart(s: string): (r: string)
    ensures |r| <= |s|
    ensures r == [] || !IsSpace(r[0])
  {
    if s != [] && IsSpace(s[0]) then TrimStart(s[1..]) else s
  }

  /** `TrimStart` removes a prefix, and only white space. */
  lemma {:induction false} TrimStartSuffix(s: string)
    ensures var r := TrimStart(s);
      r == s[|s| - |r|..] && AllSpace(s[..|s| - |r|])
  {
    if s != [] && IsSpace(s[0]) {
      TrimStartSuffix(s[1..]);
    }
  }

  function TrimEnd(s: string): (r: string)
    ensures |r| <= |s|
    ensures r == [] || !IsSpace(r[|r| - 1])
  {
    if s != [] && IsSpace(s[|s| - 1]) then TrimEnd(s[..|s| - 1]) else s
  }

  /** `TrimEnd` removes a suffix, and only white space. */
  lemma {:induction false} TrimEndPrefix(s: string)
    ensures var r := TrimEnd(s);
      r == s[..|r|] && AllSpace(s[|r|..])
  {
    if s != [] && IsSpace(s[|s| - 1]) {
      TrimEndPrefix(s[..|s| - 1]);
    }
  }

  /** Python's `str.strip()`: white space removed from both ends. */
  function Strip(s: string): (r: string)
    ensures r == [] || (!IsSpace(r[0]) && !IsSpace(r[|r| - 1]))
  {
    TrimEndPrefix(TrimStart(s));
    TrimEnd(TrimStart(s))
  }

  /** Padding a string with white space on both sides is undone by `Strip`. */
  lemma StripPadded(w1: string, x: string, w2: string)
    requires AllSpace(w1) && AllSpace(w2)
    requires x == [] || (!IsSpace(x[0]) && !IsSpace(x[|x| - 1]))
    ensures Strip(w1 + x + w2) == x
  {
    if x == [] {
      assert w1 + x + w2 == w1 + w2;
      TrimStartSpaces(w1 + w2, []);
      assert w1 + w2 + [] == w1 + w2;
    } else {
      assert w1 + x + w2 == w1 + (x + w2);
      TrimStartSpaces(w1, x + w2);
      TrimEndSpaces(x, w2);
    }
  }

  lemma {:induction false} TrimStartSpaces(w: string, t: string)
    requires AllSpace(w)
    requires t == [] || !IsSpace(t[0])
    ensures TrimStart(w + t) == t
  {
    if w != [] {
      assert (w + t)[1..] == w[1..] + t;
      TrimStartSpaces(w[1..], t);
    }
  }

  lemma {:induction false} TrimEndSpaces(t: string, w: string)
    requires AllSpace(w)
    requires t == [] || !IsSpace(t[|t| - 1])
    ensures TrimEnd(t + w) == t
  {
    if w != [] {
      assert (t + w)[..|t + w| - 1] == t + w[..|w| - 1];
      TrimEndSpaces(t, w[..|w| - 1]);
    }
  }

  /** The inverse of `str.split(sep)`: the parts with `sep` between them. */
  function JoinWith(parts: seq<string>, sep: char): string {
    if |parts| == 0 then []
    else if |parts| == 1 then parts[0]
    else parts[0] + [sep] + JoinWith(parts[1..], sep)
  }

  /** A join of parts that begin and end with a digit begins and ends with
      a digit. */
  lemma {:induction false} JoinEnds(parts: seq<string>, sep: char)
    requires |parts| > 0
    requires forall i :: 0 <= i < |parts| ==> parts[i] != [] && IsDigit(parts[i][0]) && IsDigit(parts[i][|parts[i]| - 1])
    ensures var s := JoinWith(parts, sep);
      s != [] && IsDigit(s[0]) && IsDigit(s[|s| - 1])
  {
    if |parts| > 1 {
      JoinEnds(parts[1..], sep);
    }
  }

  /** Python's `s.split(sep)` for a one-character separator: always at least
      one part (`"".split(",") == [""]`), empty parts kept. */
  function SplitOn(s: string, sep: char): (parts: seq<string>)
    ensures |parts| >= 1
    ensures forall i :: 0 <= i < |parts| ==> sep !in parts[i]
    ensures JoinWith(parts, sep) == s
  {
    if s == [] then [[]]
    else
      var tail := SplitOn(s[1..], sep);
      if s[0] == sep then
        assert JoinWith([[]] + tail, sep) == [sep] + JoinWith(tail, sep);
        [[]] + tail
      else
        var parts := [[s[0]] + tail[0]] + tail[1..];
        assert parts[1..] == tail[1..];
        parts
  }

  /** Splitting the join of separator-free parts gives the parts back. */
  lemma {:induction false} SplitOnJoin(parts: seq<string>, sep: char)
    requires |parts| >= 1
    requires forall i :: 0 <= i < |parts| ==> sep !in parts[i]
    ensures SplitOn(JoinWith(parts, sep), sep) == parts
  {
    if |parts| == 1 {
      SplitOnFree(parts[0], sep);
    } else {
      SplitOnJoin(parts[1..], sep);
      SplitOnFirst(parts[0], sep, JoinWith(parts[1..], sep));
      assert [parts[0]] + parts[1..] == parts;
    }
  }

  lemma {:induction false} SplitOnFree(s: string, sep: char)
    requires sep !in s
    ensures SplitOn(s, sep) == [s]
  {
    if s != [] {
      SplitOnFree(s[1..], sep);
    }
  }

  lemma {:induction false} SplitOnFirst(p: string, sep: char, rest: string)
    requires sep !in p
    ensures SplitOn(p + [sep] + rest, sep) == [p] + SplitOn(rest, sep)
  {
    if p == [] {
      assert ([] + [sep] + rest)[1..] == rest;
    } else {
      assert (p + [sep] + rest)[1..] == p[1..] + [sep] + rest;
      SplitOnFirst(p[1..], sep, rest);
      assert [p[0]] + p[1..] == p;
    }
  }

  /** Length of the leading run of non-white-space characters. */
  function RunLength(s: string): (n: nat)
    ensures n <= |s|
    ensures NoSpace(s[..n])
    ensures n < |s| ==> IsSpace(s[n])
  {
    if s == [] || IsSpace(s[0]) then 0
    else
      var n := 1 + RunLength(s[1..]);
      assert s[..n] == [s[0]] + s[1..][..n - 1];
      n
  }

  /** Python's `s.split()` with no argument: the maximal runs of
      non-white-space characters, in order; never an empty token. */
  function SplitWs(s: string): (tokens: seq<string>)
    ensures forall i :: 0 <= i < |tokens| ==> tokens[i] != [] && NoSpace(tokens[i])
    decreases |s|
  {
    if s == [] then []
    else if IsSpace(s[0]) then SplitWs(s[1..])
    else
      var n := RunLength(s);
      [s[..n]] + SplitWs(s[n..])
  }

  /** Space-separated non-empty tokens split back into themselves. */
  lemma {:induction false} SplitWsJoin(tokens: seq<string>)
    requires forall i :: 0 <= i < |tokens| ==> tokens[i] != [] && NoSpace(tokens[i])
    ensures SplitWs(JoinWith(tokens, ' ')) == tokens
  {
    if |tokens| == 1 {
      RunLengthToken(tokens[0], []);
      assert tokens[0] + [] == tokens[0];
    } else if |tokens| > 1 {
      var t := tokens[0];
      var rest := JoinWith(tokens[1..], ' ');
      var s := t + [' '] + rest;
      RunLengthToken(t, [' '] + rest);
      assert s == t + ([' '] + rest);
      assert s[|t|..] == [' '] + rest;
      assert s[..|t|] == t;
      assert ([' '] + rest)[1..] == rest;
      SplitWsJoin(tokens[1..]);
      assert [t] + tokens[1..] == tokens;
    }
  }

  lemma {:induction false} RunLengthToken(t: string, rest: string)
    requires t != [] && NoSpace(t)
    requires rest == [] || IsSpace(rest[0])
    ensures RunLength(t + rest) == |t|
  {
    assert (t + rest)[1..] == t[1..] + rest;
    if |t| > 1 {
      RunLengthToken(t[1..], rest);
    }
  }

  /** The digits of Python's integer-literal grammar as `int()` accepts them:
      ASCII digits, single underscores allowed between two digits. */
  predicate IsDigitGroups(s: string) {
    && 0 < |s| && IsDigit(s[0]) && IsDigit(s[|s| - 1])
    && (forall i :: 0 <= i < |s| ==> IsDigit(s[i]) || s[i] == '_')
    && (forall i :: 0 <= i < |s| - 1 ==> s[i] == '_' ==> s[i + 1] != '_')
  }

  function DropUnderscores(s: string): (r: string)
    requires forall i :: 0 <= i < |s| ==> IsDigit(s[i]) || s[i] == '_'
    ensures AllDigits(r) && |r| <= |s|
  {
    if s == [] then []
    else if s[0] == '_' then DropUnderscores(s[1..])
    else [s[0]] + DropUnderscores(s[1..])
  }

  /** Python's `int(s)` in base 10: optional surrounding white space (other
      than the information separators), an optional `+` or `-` sign, then
      digit groups; anything else is a `ValueError`, modelled as
      `ParseError`. */
  function PyInt(s: string): (r: Result<int>)
    ensures r.Ok? <==> !HasInfoSeparator(s) && Strip(s) != [] && IsDigitGroups(Unsigned(Strip(s)))
    ensures r.Ok? ==> Magnitude(r.value) == DigitsValue(DropUnderscores(Unsigned(Strip(s))))
    ensures r.Ok? && '-' !in s ==> r.value >= 0
    ensures r.Ok? ==> forall c :: c in s ==> IntChar(c)
  {
    if HasInfoSeparator(s) then Err(ParseError)
    else
      var t := Strip(s);
      var r := SignedDigits(t);
      StripChars(s);
      assert r.Ok? && r.value < 0 ==> '-' in s by {
        if r.Ok? && r.value < 0 {
          var u := TrimStart(s);
          TrimStartSuffix(s);
          TrimEndPrefix(u);
          assert t[0] == u[0] == s[|s| - |u|];
        }
      }
      r
  }

  /** The characters `int()` can accept at all: digits, white space, a
      sign and the underscore between digits. */
  predicate IntChar(c: char) {
    IsDigit(c) || IsSpace(c) || c == '+' || c == '-' || c == '_'
  }

  /** The text after an optional leading sign. */
  function Unsigned(t: string): string {
    if t != [] && (t[0] == '+' || t[0] == '-') then t[1..] else t
  }

  function Magnitude(v: int): nat {
    if v < 0 then -v else v
  }

  /** `int()` after white space has been stripped: a sign, then digit groups. */
  function SignedDigits(t: string): (r: Result<int>)
    ensures r.Ok? <==> t != [] && IsDigitGroups(Unsigned(t))
    ensures r.Ok? ==> Magnitude(r.value) == DigitsValue(DropUnderscores(Unsigned(t)))
    ensures r.Ok? ==> 0 < |t| && IsDigit(t[|t| - 1])
    ensures r.Ok? && r.value < 0 ==> t[0] == '-'
    ensures r.Ok? ==> forall c :: c in t ==> IntChar(c)
  {
    if t == [] then Err(ParseError)
    else
      var body := Unsigned(t);
      if !IsDigitGroups(body) then Err(ParseError)
      else
        var v: int := DigitsValue(DropUnderscores(body));
        assert forall c :: c in t ==> IntChar(c) by {
          assert t == [t[0]] + t[1..];
          forall c | c in t ensures IntChar(c) {
            if c != t[0] {
              assert c in t[1..];
            }
          }
        }
        Ok(if t[0] == '-' then -v else v)
  }

  /** Every character of a text is white space or survives `strip()`. */
  lemma StripChars(s: string)
    ensures forall c :: c in s ==> c in Strip(s) || IsSpace(c)
  {
    var u := TrimStart(s);
    var t := Strip(s);
    TrimStartSuffix(s);
    TrimEndPrefix(u);
    var k := |s| - |u|;
    forall c | c in s ensures c in t || IsSpace(c) {
      var i :| 0 <= i < |s| && s[i] == c;
      if i < k {
        assert s[..k][i] == c;
      } else if i - k < |t| {
        assert u[i - k] == c;
        assert t[i - k] == c;
      } else {
        assert u[i - k] == c;
        assert u[|t|..][i - k - |t|] == c;
      }
    }
  }

  /** `int()` reads back every rendered natural. */
  lemma PyIntShowNat(n: nat)
    ensures PyInt(ShowNat(n)) == Ok(n)
  {
    PyIntDigits(ShowNat(n));
    ShowNatValue(n);
  }

  /** `int()` of a plain string of ASCII digits is its decimal value. */
  lemma PyIntDigits(s: string)
    requires 0 < |s| && AllDigits(s)
    ensures PyInt(s) == Ok(DigitsValue(s))
  {
    DigitsHaveNoSeparator(s);
    StripDigits(s);
    UnsignedDigits(s);
    PyIntSigned(s);
  }

  /** A plain run of digits has no surrounding white space to strip. */
  lemma StripDigits(s: string)
    requires 0 < |s| && AllDigits(s)
    ensures Strip(s) == s
  {
    assert !IsSpace(s[0]) && !IsSpace(s[|s| - 1]);
    StripPadded([], s, []);
    assert [] + s + [] == s;
  }

  /** Without an information separator, `int()` reads the stripped text. */
  lemma PyIntSigned(s: string)
    requires !HasInfoSeparator(s)
    ensures PyInt(s) == SignedDigits(Strip(s))
  {
  }

  lemma {:induction false} DigitsHaveNoSeparator(s: string)
    requires AllDigits(s)
    ensures !HasInfoSeparator(s)
  {
    if s != [] {
      DigitsHaveNoSeparator(s[1..]);
    }
  }

  /** An information separator anywhere, even where `str.strip()` would
      remove it, makes `int()` fail. */
  lemma PyIntSeparator(s: string, i: nat)
    requires i < |s| && IsInfoSeparator(s[i])
    ensures PyInt(s) == Err(ParseError)
  {
    HasInfoSeparatorAt(s);
  }

  /** `int("\x1c1")` is a `ValueError`, although stripping `"\x1c1"` leaves
      the digit `1`. */
  lemma SeparatorBeforeDigit()
    ensures Strip(['\U{1C}', '1']) == "1"
    ensures PyInt(['\U{1C}', '1']) == Err(ParseError)
  {
    var s := ['\U{1C}', '1'];
    StripPadded(['\U{1C}'], "1", []);
    assert ['\U{1C}'] + "1" + [] == s;
    PyIntSeparator(s, 0);
  }

  /** A plain run of digits has no sign and a single digit group. */
  lemma UnsignedDigits(s: string)
    requires 0 < |s| && AllDigits(s)
    ensures SignedDigits(s) == Ok(DigitsValue(s))
  {
    assert s[0] != '+' && s[0] != '-';
    assert IsDigitGroups(s);
    DropUnderscoresDigits(s);
  }

  /** `int()` of the empty string, or of white space only, is an error. */
  lemma PyIntBlank(s: string)
    requires AllSpace(s)
    ensures PyInt(s) == Err(ParseError)
  {
    StripPadded(s, [], []);
    assert s + [] + [] == s;
  }

  lemma {:induction false} DropUnderscoresDigits(s: string)
    requires AllDigits(s)
    ensures DropUnderscores(s) == s
  {
    if s != [] {
      DropUnderscoresDigits(s[1..]);
      assert [s[0]] + s[1..] == s;
    }
  }
}

=== FILE: results.dfy ===
/** Failure-carrying results for the accounting engine.

    Every fatal condition the profiler can hit at stop time is one constructor
    of `Error`; an operation that can fail returns a `Result`, so the error
    paths are part of each contract instead of being excluded by a `requires`.
 */
module Results {

  /** The fatal conditions of a stop (or start) call.
      - `ParseError`: a counter file or a cpuset token that `int()` rejects,
        or a range token that does not split into exactly two numbers.
      - `MissingBaseline`: the snapshot taken at start lacks the needed key.
      - `IndexOutOfRange`: a cpuset core index past the end of a counter list.
      - `FieldMissing`: the job description has no parsable duration field.
      - `ZeroDivision`: a per-core load divided by a zero run time.
      - `NoDevices`: the maximum or minimum of an empty per-device list.
      - `Overflow`: a duration too long for Python's `timedelta`. */
  datatype Error =
    | ParseError
    | MissingBaseline
    | IndexOutOfRange
    | FieldMissing
    | ZeroDivision
    | NoDevices
    | Overflow

  datatype Result<+T> = Ok(value: T) | Err(error: Error) {

    predicate IsFailure() {
      Err?
    }

    function PropagateFailure<U>(): Result<U>
      requires Err?
    {
      Err(error)
    }

    function Extract(): T
      requires Ok?
    {
      value
    }
  }

  datatype Option<+T> = None | Some(value: T)
}

=== FILE: slurmtime.dfy ===
/** Reading a duration field out of the scheduler's one-line job description
    (`scontrol show job <id> -o`), as `TimeStats.stop` and `CGroupStats.stop`
    do with the pattern `.*Key=(([0-9]+)-)?([0-9]+):([0-9]+):([0-9]+).*`
    and `re.search`.

    The pattern is modelled exactly. Its greedy leading `.*` cannot cross a
    line break, so the search settles on the first line holding a match, and
    within that line on the LAST position where `Key=` is followed by a
    well-formed duration. Each digit group is maximal, the optional day group
    is tried first, and whatever follows the seconds is ignored. */
module SlurmTime {
  import opened Results
  import opened Decimal
  import opened PyText

  const TimeLimitKey: string := "TimeLimit="
  const RunTimeKey: string := "RunTime="

  /** Number of leading ASCII digits of `s`. */
  function DigitRun(s: string): (n: nat)
    ensures n <= |s|
    ensures n < |s| ==> !IsDigit(s[n])
  {
    if s != [] && IsDigit(s[0]) then 1 + DigitRun(s[1..]) else 0
  }

  /** The leading run is made of digits only. */
  lemma {:induction false} DigitRunDigits(s: string)
    ensures AllDigits(s[..DigitRun(s)])
  {
    if s != [] && IsDigit(s[0]) {
      DigitRunDigits(s[1..]);
      assert s[..DigitRun(s)] == [s[0]] + s[1..][..DigitRun(s[1..])];
    }
  }

  /** `([0-9]+)` followed by the character `sep`: the group's value and the
      text after `sep`. */
  function NumberThen(s: string, sep: char): (r: Option<(nat, string)>)
    ensures r.Some? ==> |r.value.1| < |s|
  {
    var n := DigitRun(s);
    if 0 < n < |s| && s[n] == sep then
      DigitRunDigits(s);
      Some((DigitsValue(s[..n]), s[n + 1..]))
    else None
  }

  /** `([0-9]+):([0-9]+):([0-9]+)`, as a number of seconds. */
  function Clock(s: string): Option<nat> {
    match NumberThen(s, ':')
    case None => None
    case Some((h, rest)) => MinutesSeconds(h, rest)
  }

  /** `([0-9]+):([0-9]+)` after `H:` has been read as `h` hours. */
  function MinutesSeconds(h: nat, s: string): Option<nat> {
    match NumberThen(s, ':')
    case None => None
    case Some((m, rest)) =>
      var n := DigitRun(rest);
      if n == 0 then None
      else
        DigitRunDigits(rest);
        Some(h * 3600 + m * 60 + DigitsValue(rest[..n]))
  }

  /** `(([0-9]+)-)?([0-9]+):([0-9]+):([0-9]+)` at the start of `s`, in
      seconds; an absent day group counts as zero days (`groups(default="0")`).
      The day branch is tried first and, as in a backtracking matcher, the
      pattern without days is tried when the rest fails after it. */
  function Duration(s: string): (r: Option<nat>)
    ensures r.Some? ==> 0 < |s| && IsDigit(s[0])
    ensures Clock(s).Some? ==> r.Some?
  {
    match NumberThen(s, '-')
    case Some((d, rest)) =>
      (match Clock(rest)
       case Some(c) => Some(d * 86400 + c)
       case None => Clock(s))
    case None => Clock(s)
  }

  /** `key` at position `q` of `line`, followed by a duration. */
  function MatchAt(line: string, key: string, q: nat): Option<nat> {
    if KeyAt(line, key, q) then Duration(line[q + |key|..]) else None
  }

  /** `key` starts at position `p` of `s`. */
  predicate KeyAt(s: string, key: string, p: nat) {
    p + |key| <= |s| && s[p..p + |key|] == key
  }

  /** The outcome of the pattern at each of the positions `0..n-1` of
      `line`. */
  function Attempts(line: string, key: string, n: nat): (r: seq<Option<nat>>)
    ensures |r| == n
    ensures forall p :: 0 <= p < n ==> r[p] == MatchAt(line, key, p)
  {
    if n == 0 then [] else Attempts(line, key, n - 1) + [MatchAt(line, key, n - 1)]
  }

  /** The greedy choice among attempts: the position of the last one that
      succeeds. */
  function LastSome(xs: seq<Option<nat>>): (r: Option<nat>)
    ensures r.None? <==> forall p :: 0 <= p < |xs| ==> xs[p].None?
    ensures r.Some? ==> r.value < |xs| && xs[r.value].Some?
    ensures r.Some? ==> forall p :: r.value < p < |xs| ==> xs[p].None?
  {
    if xs == [] then None
    else if xs[|xs| - 1].Some? then Some(|xs| - 1)
    else
      var r := LastSome(xs[..|xs| - 1]);
      assert forall p :: 0 <= p < |xs| - 1 ==> xs[..|xs| - 1][p] == xs[p];
      r
  }

  /** The greedy search within one line: the match at the greatest position
      of the line where one starts, if there is any. */
  function LastMatch(line: string, key: string): (r: Option<nat>)
    ensures r.None? <==> forall p :: 0 <= p <= |line| ==> MatchAt(line, key, p).None?
  {
    var xs := Attempts(line, key, |line| + 1);
    match LastSome(xs)
    case None => None
    case Some(p) => xs[p]
  }

  /** The greedy search on each line, in order. */
  function LineMatches(lines: seq<string>, key: string): (r: seq<Option<nat>>)
    ensures |r| == |lines|
    ensures forall i :: 0 <= i < |lines| ==> r[i] == LastMatch(lines[i], key)
  {
    if lines == [] then [] else [LastMatch(lines[0], key)] + LineMatches(lines[1..], key)
  }

  /** The position of the first outcome that is a match. */
  function FirstSome(xs: seq<Option<nat>>): (r: Option<nat>)
    ensures r.None? <==> forall p :: 0 <= p < |xs| ==> xs[p].None?
    ensures r.Some? ==> r.value < |xs| && xs[r.value].Some?
    ensures r.Some? ==> forall p :: 0 <= p < r.value ==> xs[p].None?
  {
    if xs == [] then None
    else if xs[0].Some? then Some(0)
    else
      match FirstSome(xs[1..])
      case None => None
      case Some(p) => Some(p + 1)
  }

  /** The search over the lines in order: the first line that matches. */
  function FirstLineMatch(lines: seq<string>, key: string): (r: Option<nat>)
    ensures r.None? <==> forall i :: 0 <= i < |lines| ==> LastMatch(lines[i], key).None?
  {
    var xs := LineMatches(lines, key);
    match FirstSome(xs)
    case None => None
    case Some(i) => xs[i]
  }

  /** The search returns the match of the first line that has one, whatever
      later lines hold. */
  lemma FirstLineWins(lines: seq<string>, key: string, i: nat)
    requires i < |lines| && LastMatch(lines[i], key).Some?
    requires forall j :: 0 <= j < i ==> LastMatch(lines[j], key).None?
    ensures FirstLineMatch(lines, key) == LastMatch(lines[i], key)
  {
    var xs := LineMatches(lines, key);
    assert xs[i].Some?;
    var f := FirstSome(xs);
    assert f.Some?;
    assert f.value <= i;
    assert xs[f.value] == LastMatch(lines[f.value], key);
    assert f.value == i;
  }

  /** `re.search(r".*Key=(([0-9]+)-)?([0-9]+):([0-9]+):([0-9]+).*", info)`
      reduced to the total number of seconds `D*86400 + H*3600 + M*60 + S`. */
  function FieldSeconds(info: string, key: string): Option<nat> {
    FirstLineMatch(SplitOn(info, '\n'), key)
  }

  /** The seconds of a duration field; a missing or malformed field makes
      `re.search` return `None`, and the source's `.groups` on it fails. */
  function Seconds(info: string, key: string): (r: Result<nat>)
    ensures r.Err? <==> FirstLineMatch(SplitOn(info, '\n'), key).None?
    ensures r.Err? ==> r.error == FieldMissing
    ensures r.Ok? ==> r.value == FirstLineMatch(SplitOn(info, '\n'), key).value
  {
    match FieldSeconds(info, key)
    case Some(v) => Ok(v)
    case None => Err(FieldMissing)
  }

  /** Seconds in 10^9 days: `timedelta` holds at most 999999999 days and
      a few hours more, so `timedelta(seconds=n)` with a larger `n` raises
      `OverflowError`. */
  const TimedeltaLimit: nat := 86400 * 1000000000

  /** `timedelta(seconds=n)`, kept as its number of seconds. */
  function Timedelta(n: nat): (r: Result<nat>)
    ensures r.Ok? <==> n < TimedeltaLimit
    ensures r.Ok? ==> r.value == n
    ensures r.Err? ==> r.error == Overflow
  {
    if n < TimedeltaLimit then Ok(n) else Err(Overflow)
  }

  /** `TimeStats.stop`: the job's run time and reserved time (its time
      limit), in seconds. The time limit is looked up and converted first,
      then the run time; either conversion overflows for 10^9 days or
      more. */
  function TimeStop(info: string): (r: Result<(nat, nat)>)
    ensures r.Ok? <==>
      && Seconds(info, TimeLimitKey).Ok? && Seconds(info, TimeLimitKey).value < TimedeltaLimit
      && Seconds(info, RunTimeKey).Ok? && Seconds(info, RunTimeKey).value < TimedeltaLimit
    ensures r.Ok? ==> r.value == (Seconds(info, RunTimeKey).value, Seconds(info, TimeLimitKey).value)
    ensures Seconds(info, TimeLimitKey).Err? ==> r == Err(FieldMissing)
    ensures Seconds(info, TimeLimitKey).Ok? && Seconds(info, TimeLimitKey).value >= TimedeltaLimit ==>
      r == Err(Overflow)
  {
    var reserved :- Seconds(info, TimeLimitKey);
    var limit :- Timedelta(reserved);
    var run :- Seconds(info, RunTimeKey);
    var elapsed :- Timedelta(run);
    Ok((elapsed, limit))
  }

  // ---------------------------------------------------------------------
  // Rendering a duration, and reading it back.

  /** One field of a printed duration: a non-empty run of ASCII digits,
      leading zeros allowed, as in the scheduler's `00:00:05`. */
  type Digits = s: string | 0 < |s| && AllDigits(s) witness "0"

  /** A duration as the scheduler prints it, `[D-]H:M:S`: each field a
      digit string, zero-padded or not, of any length. */
  datatype Span = Span(days: Option<Digits>, hours: Digits, minutes: Digits, seconds: Digits)

  function TotalSeconds(d: Span): nat {
    (match d.days case Some(n) => DigitsValue(n) case None => 0) * 86400
      + DigitsValue(d.hours) * 3600 + DigitsValue(d.minutes) * 60 + DigitsValue(d.seconds)
  }

  function ShowSpan(d: Span): string {
    match d.days
    case Some(n) => n + ['-'] + ShowClock(d)
    case None => ShowClock(d)
  }

  function ShowClock(d: Span): string {
    d.hours + [':'] + d.minutes + [':'] + d.seconds
  }

  lemma {:induction false} DigitRunOf(t: string, rest: string)
    requires AllDigits(t)
    requires rest == [] || !IsDigit(rest[0])
    ensures DigitRun(t + rest) == |t|
  {
    if t != [] {
      assert (t + rest)[1..] == t[1..] + rest;
      DigitRunOf(t[1..], rest);
    }
  }

  /** A digit group followed by `sep` reads as its value. */
  lemma NumberThenOf(t: string, sep: char, rest: string)
    requires 0 < |t| && AllDigits(t) && !IsDigit(sep)
    ensures NumberThen(t + [sep] + rest, sep) == Some((DigitsValue(t), rest))
  {
    var s := t + [sep] + rest;
    assert s == t + ([sep] + rest);
    DigitRunOf(t, [sep] + rest);
    assert s[..|t|] == t;
    assert s[|t| + 1..] == rest;
  }

  /** Three digit groups separated by colons read as hours, minutes and
      seconds. */
  lemma ClockOf(h: string, m: string, sec: string, post: string)
    requires 0 < |h| && AllDigits(h) && 0 < |m| && AllDigits(m) && 0 < |sec| && AllDigits(sec)
    requires post == [] || !IsDigit(post[0])
    ensures var r := Clock(h + [':'] + (m + [':'] + (sec + post)));
      r.Some? && r.value == DigitsValue(h) * 3600 + DigitsValue(m) * 60 + DigitsValue(sec)
  {
    MinutesSecondsOf(DigitsValue(h), m, sec, post);
    ClockStep(h, m + [':'] + (sec + post));
  }

  lemma ClockStep(h: string, rest: string)
    requires 0 < |h| && AllDigits(h)
    ensures Clock(h + [':'] + rest) == MinutesSeconds(DigitsValue(h), rest)
  {
    NumberThenOf(h, ':', rest);
  }

  lemma MinutesSecondsOf(hv: nat, m: string, sec: string, post: string)
    requires 0 < |m| && AllDigits(m) && 0 < |sec| && AllDigits(sec)
    requires post == [] || !IsDigit(post[0])
    ensures var r := MinutesSeconds(hv, m + [':'] + (sec + post));
      r.Some? && r.value == hv * 3600 + DigitsValue(m) * 60 + DigitsValue(sec)
  {
    DigitRunOf(sec, post);
    assert (sec + post)[..|sec|] == sec;
    MinutesStep(hv, m, sec, sec + post);
  }

  lemma MinutesStep(hv: nat, m: string, sec: string, last: string)
    requires 0 < |m| && AllDigits(m) && 0 < |sec| && AllDigits(sec)
    requires DigitRun(last) == |sec| && last[..|sec|] == sec
    ensures var r := MinutesSeconds(hv, m + [':'] + last);
      r.Some? && r.value == hv * 3600 + DigitsValue(m) * 60 + DigitsValue(sec)
  {
    NumberThenOf(m, ':', last);
  }

  /** A rendered duration, followed by anything that does not continue its
      last digit group, reads back as its total number of seconds. */
  lemma DurationOf(d: Span, post: string)
    requires post == [] || !IsDigit(post[0])
    ensures var r := Duration(ShowSpan(d) + post);
      r.Some? && r.value == TotalSeconds(d)
  {
    if d.days.Some? {
      DurationWithDays(d, post);
    } else {
      DurationWithoutDays(d, post);
    }
  }

  /** `s` is a written-out duration followed by text that does not
      continue its seconds. */
  predicate SpanThen(s: string, d: Span, post: string) {
    s == ShowSpan(d) + post && (post == [] || !IsDigit(post[0]))
  }

  /** The duration pattern matches at the start of `s` exactly when `s`
      starts with a written-out duration whose seconds are not followed by
      another digit; anything else, such as `12:34`, is no match. */
  lemma DurationIsSpan(s: string)
    ensures Duration(s).Some? <==> exists d: Span, post: string :: SpanThen(s, d, post)
  {
    if Duration(s).Some? {
      var d, post := DurationShape(s);
      assert SpanThen(s, d, post);
    }
    if exists d: Span, post: string :: SpanThen(s, d, post) {
      var d: Span, post: string :| SpanThen(s, d, post);
      DurationOf(d, post);
    }
  }

  /** Hours and minutes without seconds are no duration. */
  lemma NoSeconds(s: string)
    requires s == "12:34"
    ensures Duration(s).None?
  {
    DigitRunOf("12", ":34");
    assert "12" + ":34" == s;
    assert NumberThen(s, '-').None?;
    DigitRunOf("34", []);
    assert "34" + [] == s[3..];
    assert NumberThen(s[3..], ':').None?;
  }

  /** A match of the duration pattern, taken apart into its groups: the
      converse of `DurationOf`. */
  lemma DurationShape(s: string) returns (d: Span, post: string)
    requires Duration(s).Some?
    ensures SpanThen(s, d, post) && Duration(s).value == TotalSeconds(d)
  {
    match NumberThen(s, '-')
    case Some((dv, rest)) =>
      if Clock(rest).Some? {
        var n, r := NumberShape(s, '-');
        var h, m, sec, p := ClockShape(rest);
        d, post := Span(Some(n), h, m, sec), p;
        ClockText(d, post);
        DaysText(d, post);
      } else {
        d, post := ClockSpan(s);
      }
    case None =>
      d, post := ClockSpan(s);
  }

  lemma ClockSpan(s: string) returns (d: Span, post: string)
    requires Clock(s).Some?
    ensures d.days.None? && SpanThen(s, d, post) && Clock(s).value == TotalSeconds(d)
  {
    var h, m, sec, p := ClockShape(s);
    d, post := Span(None, h, m, sec), p;
    ClockText(d, post);
  }

  lemma DaysText(d: Span, post: string)
    requires d.days.Some?
    ensures ShowSpan(d) + post == d.days.value + ['-'] + (ShowClock(d) + post)
  {
  }

  lemma ClockText(d: Span, post: string)
    ensures ShowClock(d) + post == d.hours + [':'] + (d.minutes + [':'] + (d.seconds + post))
  {
  }

  /** A match of `([0-9]+):([0-9]+):([0-9]+)`, taken apart into its groups. */
  lemma ClockShape(s: string) returns (h: Digits, m: Digits, sec: Digits, post: string)
    requires Clock(s).Some?
    ensures s == h + [':'] + (m + [':'] + (sec + post))
    ensures post == [] || !IsDigit(post[0])
    ensures Clock(s).value == DigitsValue(h) * 3600 + DigitsValue(m) * 60 + DigitsValue(sec)
  {
    var rest;
    h, rest := NumberShape(s, ':');
    m, sec, post := MinutesShape(DigitsValue(h), rest);
  }

  lemma MinutesShape(hv: nat, rest: string) returns (m: Digits, sec: Digits, post: string)
    requires MinutesSeconds(hv, rest).Some?
    ensures rest == m + [':'] + (sec + post)
    ensures post == [] || !IsDigit(post[0])
    ensures MinutesSeconds(hv, rest).value == hv * 3600 + DigitsValue(m) * 60 + DigitsValue(sec)
  {
    var last;
    m, last := NumberShape(rest, ':');
    var n := DigitRun(last);
    DigitRunDigits(last);
    sec, post := last[..n], last[n..];
    assert last == sec + post;
  }

  /** A match of `([0-9]+)` followed by `sep`, taken apart. */
  lemma NumberShape(s: string, sep: char) returns (t: Digits, rest: string)
    requires NumberThen(s, sep).Some?
    ensures s == t + [sep] + rest
    ensures NumberThen(s, sep).value == (DigitsValue(t), rest)
  {
    var n := DigitRun(s);
    DigitRunDigits(s);
    t, rest := s[..n], s[n + 1..];
    assert s == s[..n] + [s[n]] + s[n + 1..];
  }

  lemma DurationWithDays(d: Span, post: string)
    requires d.days.Some?
    requires post == [] || !IsDigit(post[0])
    ensures var r := Duration(ShowSpan(d) + post);
      r.Some? && r.value == TotalSeconds(d)
  {
    var n := d.days.value;
    ShownClockOf(d, post);
    assert ShowSpan(d) + post == n + ['-'] + (ShowClock(d) + post);
    DaysClockOf(n, ShowClock(d) + post);
  }

  lemma DurationWithoutDays(d: Span, post: string)
    requires d.days.None?
    requires post == [] || !IsDigit(post[0])
    ensures var r := Duration(ShowSpan(d) + post);
      r.Some? && r.value == TotalSeconds(d)
  {
    ShownClockOf(d, post);
    var h := d.hours;
    HeadGroup(h, d.minutes, d.seconds, post);
    ClockOnlyOf(ShowSpan(d) + post, |h|);
  }

  lemma ShownClockOf(d: Span, post: string)
    requires post == [] || !IsDigit(post[0])
    ensures var r := Clock(ShowClock(d) + post);
      r.Some? && r.value == DigitsValue(d.hours) * 3600 + DigitsValue(d.minutes) * 60 + DigitsValue(d.seconds)
  {
    var h, m, sec := d.hours, d.minutes, d.seconds;
    assert ShowClock(d) + post == h + [':'] + (m + [':'] + (sec + post));
    ClockOf(h, m, sec, post);
  }

  lemma DaysClockOf(dd: string, clock: string)
    requires 0 < |dd| && AllDigits(dd) && Clock(clock).Some?
    ensures var r := Duration(dd + ['-'] + clock);
      r.Some? && r.value == DigitsValue(dd) * 86400 + Clock(clock).value
  {
    NumberThenOf(dd, '-', clock);
  }

  lemma HeadGroup(h: string, m: string, sec: string, post: string)
    ensures var s := h + [':'] + m + [':'] + sec + post;
      |h| < |s| && s[..|h|] == h && s[|h|] == ':'
  {
    var s := h + [':'] + m + [':'] + sec + post;
    assert forall i :: 0 <= i < |h| ==> s[i] == h[i];
  }

  /** Without a day group the day branch fails at the first colon. */
  lemma ClockOnlyOf(s: string, n: nat)
    requires 0 < n < |s| && AllDigits(s[..n]) && s[n] == ':'
    ensures Duration(s) == Clock(s)
  {
    DigitRunOf(s[..n], s[n..]);
    assert s[..n] + s[n..] == s;
  }

  /** A one-line job description that ends with `Key=[D-]H:M:S` yields that
      duration, whatever precedes it: no later position can start `Key=`,
      because the rendered duration holds no `=`. */
  lemma FieldAtEnd(pre: string, key: string, d: Span)
    requires 0 < |key| && key[|key| - 1] == '='
    requires '\n' !in pre && '\n' !in key
    ensures Seconds(pre + key + ShowSpan(d), key) == Ok(TotalSeconds(d))
  {
    var r := ShowSpan(d);
    var line := pre + key + r;
    assert forall i :: 0 <= i < |r| ==> r[i] != '=' && r[i] != '\n' by {
      ShowSpanChars(d);
    }
    assert '\n' !in line by {
      forall i | 0 <= i < |line| ensures line[i] != '\n' {
        if i < |pre| { assert line[i] == pre[i]; }
        else if i < |pre| + |key| { assert line[i] == key[i - |pre|]; }
        else { assert line[i] == r[i - |pre| - |key|]; }
      }
    }
    SplitOnFree(line, '\n');
    assert line[|pre|..|pre| + |key|] == key;
    assert KeyAt(line, key, |pre|);
    assert line[|pre| + |key|..] == r;
    DurationOf(d, []);
    assert r + [] == r;
    forall p | |pre| < p <= |line| ensures MatchAt(line, key, p).None? {
      if p + |key| <= |line| {
        assert line[p + |key| - 1] == r[p + |key| - 1 - |pre| - |key|];
        assert line[p..p + |key|][|key| - 1] == line[p + |key| - 1];
      }
      assert !KeyAt(line, key, p);
    }
    LastMatchFrom(line, key, |pre|);
  }

  /** When position `p` matches and nothing after it does, the greedy
      search returns the match at `p`. */
  lemma LastMatchFrom(line: string, key: string, p: nat)
    requires p <= |line|
    requires MatchAt(line, key, p).Some?
    requires forall p' :: p < p' <= |line| ==> MatchAt(line, key, p').None?
    ensures LastMatch(line, key) == MatchAt(line, key, p)
  {
    var xs := Attempts(line, key, |line| + 1);
    assert xs[p].Some?;
    var l := LastSome(xs);
    assert l.Some? && p <= l.value;
    assert xs[l.value] == MatchAt(line, key, l.value);
    assert l.value == p;
  }

  lemma ShowSpanChars(d: Span)
    ensures forall i :: 0 <= i < |ShowSpan(d)| ==> ShowSpan(d)[i] != '=' && ShowSpan(d)[i] != '\n'
  {
    SpanCharsOnly(d);
  }

  /** The characters a rendered duration is made of. */
  predicate SpanChar(c: char) {
    IsDigit(c) || c == ':' || c == '-'
  }

  lemma SpanCharsOnly(d: Span)
    ensures ShowSpan(d) != [] && forall i :: 0 <= i < |ShowSpan(d)| ==> SpanChar(ShowSpan(d)[i])
  {
    var s := ShowSpan(d);
    assert forall i :: 0 <= i < |s| ==> IsDigit(s[i]) || s[i] == ':' || s[i] == '-';
  }

  /** A key such as `RunTime=`: not empty, on one line, and sharing no
      character with a rendered duration. */
  predicate PlainKey(key: string) {
    0 < |key| && forall i :: 0 <= i < |key| ==> !SpanChar(key[i]) && key[i] != '\n'
  }

  lemma KeysArePlain()
    ensures PlainKey(RunTimeKey) && PlainKey(TimeLimitKey)
  {
  }

  /** A plain key cannot start at a position whose window overlaps a run
      of duration characters. */
  lemma SpanBlocksKey(s: string, lo: nat, hi: nat, key: string, p: nat)
    requires PlainKey(key)
    requires lo < hi <= |s| && forall q :: lo <= q < hi ==> SpanChar(s[q])
    requires p < hi && lo < p + |key|
    ensures !KeyAt(s, key, p)
  {
    var q := if p < lo then lo else p;
    if p + |key| <= |s| {
      assert s[p..p + |key|][q - p] == s[q];
      assert SpanChar(s[q]) && !SpanChar(key[q - p]);
    }
  }

  /** A plain key occurs in neither of two texts joined by a duration
      rendering, nor across the join. */
  lemma NoKeyAcross(a: string, sp: string, b: string, key: string)
    requires PlainKey(key)
    requires sp != [] && forall i :: 0 <= i < |sp| ==> SpanChar(sp[i])
    requires !Occurs(a, key) && !Occurs(b, key)
    ensures !Occurs(a + sp + b, key)
  {
    var s := a + sp + b;
    forall p: nat ensures !KeyAt(s, key, p) {
      if p + |key| <= |a| {
        assert s[p..p + |key|] == a[p..p + |key|];
        assert !KeyAt(a, key, p);
      } else if p >= |a| + |sp| {
        if p + |key| <= |s| {
          var o := p - |a| - |sp|;
          SliceRight(a + sp, b, p, |key|);
          assert !KeyAt(b, key, o);
        }
      } else {
        assert forall q :: |a| <= q < |a| + |sp| ==> s[q] == sp[q - |a|];
        SpanBlocksKey(s, |a|, |a| + |sp|, key, p);
      }
    }
  }

  /** A window lying in the right-hand part of a concatenation. */
  lemma SliceRight(x: string, y: string, p: nat, k: nat)
    requires |x| <= p && p + k <= |x| + |y|
    ensures (x + y)[p..p + k] == y[p - |x|..p - |x| + k]
  {
    var l, r := (x + y)[p..p + k], y[p - |x|..p - |x| + k];
    forall i | 0 <= i < k ensures l[i] == r[i] {
      assert l[i] == (x + y)[p + i];
    }
  }

  /** The first line of a text ends at its first line break. */
  lemma FirstLine(line: string, rest: string)
    requires '\n' !in line
    requires rest == [] || rest[0] == '\n'
    ensures SplitOn(line + rest, '\n')[0] == line
  {
    if rest == [] {
      assert line + rest == line;
      SplitOnFree(line, '\n');
    } else {
      assert line + rest == line + ['\n'] + rest[1..];
      SplitOnFirst(line, '\n', rest[1..]);
    }
  }

  /** A job description whose first line holds `Key=[D-]H:M:S` yields that
      duration, whatever precedes the field on the line, whatever follows
      it there (as long as it does not continue the seconds and holds no
      further `Key=`), and whatever later lines hold. */
  lemma FieldInDescription(pre: string, key: string, d: Span, post: string, rest: string)
    requires PlainKey(key)
    requires '\n' !in pre && '\n' !in post
    requires post == [] || !IsDigit(post[0])
    requires !Occurs(post, key)
    requires rest == [] || rest[0] == '\n'
    ensures Seconds(pre + key + ShowSpan(d) + post + rest, key) == Ok(TotalSeconds(d))
  {
    var line := pre + key + ShowSpan(d) + post;
    SpanCharsOnly(d);
    OneLine(pre, key, ShowSpan(d), post);
    FirstLine(line, rest);
    FieldIsLast(pre, key, d, post);
    FirstLineWins(SplitOn(line + rest, '\n'), key, 0);
  }

  /** The line `pre + key + span + post` has no line break. */
  lemma OneLine(pre: string, key: string, sp: string, post: string)
    requires '\n' !in pre && '\n' !in key && '\n' !in sp && '\n' !in post
    ensures '\n' !in pre + key + sp + post
  {
  }

  /** Within its line, the field is the last place where `key` starts, so
      the greedy search reads it. */
  lemma FieldIsLast(pre: string, key: string, d: Span, post: string)
    requires PlainKey(key)
    requires post == [] || !IsDigit(post[0])
    requires !Occurs(post, key)
    ensures LastMatch(pre + key + ShowSpan(d) + post, key) == Some(TotalSeconds(d))
  {
    var line := pre + key + ShowSpan(d) + post;
    FieldMatches(pre, key, d, post);
    NoLaterKey(pre, key, d, post);
    forall p | |pre| < p <= |line| ensures MatchAt(line, key, p).None? {
      assert !KeyAt(line, key, p);
    }
    LastMatchFrom(line, key, |pre|);
  }

  lemma FieldMatches(pre: string, key: string, d: Span, post: string)
    requires post == [] || !IsDigit(post[0])
    ensures MatchAt(pre + key + ShowSpan(d) + post, key, |pre|) == Some(TotalSeconds(d))
  {
    var line := pre + key + ShowSpan(d) + post;
    assert line[|pre|..|pre| + |key|] == key;
    assert line[|pre| + |key|..] == ShowSpan(d) + post;
    DurationOf(d, post);
  }

  /** No `key` starts after the field's own: a window overlapping the
      duration would have to share one of its characters, and one lying in
      the rest of the line would be an occurrence there. */
  lemma NoLaterKey(pre: string, key: string, d: Span, post: string)
    requires PlainKey(key)
    requires !Occurs(post, key)
    ensures forall p :: |pre| < p ==> !KeyAt(pre + key + ShowSpan(d) + post, key, p)
  {
    var sp := ShowSpan(d);
    var line := pre + key + sp + post;
    var lo, hi := |pre| + |key|, |pre| + |key| + |sp|;
    SpanCharsOnly(d);
    assert forall q :: lo <= q < hi ==> line[q] == sp[q - lo];
    forall p | |pre| < p ensures !KeyAt(line, key, p) {
      if p + |key| <= |line| {
        if p < hi {
          SpanBlocksKey(line, lo, hi, key, p);
        } else {
          SliceRight(pre + key + sp, post, p, |key|);
          assert !KeyAt(post, key, p - hi);
        }
      }
    }
  }

  /** `TimeStats.stop` on a description holding `RunTime=` and then
      `TimeLimit=`, as the scheduler prints them (zero-padded or not): the
      run time and the time limit, each read from its own field, unless one
      of them is too long for `timedelta`. */
  lemma TimeStopOf(pre: string, run: Span, limit: Span, post: string, rest: string)
    requires '\n' !in pre && '\n' !in post
    requires post == [] || !IsDigit(post[0])
    requires !Occurs(post, RunTimeKey) && !Occurs(post, TimeLimitKey)
    requires rest == [] || rest[0] == '\n'
    ensures var r := TimeStop(pre + RunTimeKey + ShowSpan(run) + " " + TimeLimitKey + ShowSpan(limit) + post + rest);
      if TotalSeconds(run) < TimedeltaLimit && TotalSeconds(limit) < TimedeltaLimit
      then r == Ok((TotalSeconds(run), TotalSeconds(limit)))
      else r == Err(Overflow)
  {
    var info := pre + RunTimeKey + ShowSpan(run) + " " + TimeLimitKey + ShowSpan(limit) + post + rest;
    RunTimeField(pre, run, limit, post, rest);
    TimeLimitField(pre, run, limit, post, rest);
    TimeStopFromFields(info, TotalSeconds(run), TotalSeconds(limit));
  }

  /** A job description in the scheduler's one-line form, with zero-padded
      durations and more fields after them. */
  lemma PaddedDescription(info: string)
    requires info == "JobId=42 RunTime=00:00:05 TimeLimit=01:00:00 TimeMin=N/A"
    ensures TimeStop(info) == Ok((5, 3600))
  {
    var run := Span(None, "00", "00", "05");
    var limit := Span(None, "01", "00", "00");
    var e := "JobId=42 " + RunTimeKey + ShowSpan(run) + " " + TimeLimitKey + ShowSpan(limit) + " TimeMin=N/A" + [];
    NoKeyInTail();
    TimeStopOf("JobId=42 ", run, limit, " TimeMin=N/A", []);
    PaddedValues(run, limit);
    assert TimeStop(e) == Ok((5, 3600));
    PaddedText(info, run, limit);
  }

  lemma PaddedText(info: string, run: Span, limit: Span)
    requires info == "JobId=42 RunTime=00:00:05 TimeLimit=01:00:00 TimeMin=N/A"
    requires run == Span(None, "00", "00", "05") && limit == Span(None, "01", "00", "00")
    ensures info == "JobId=42 " + RunTimeKey + ShowSpan(run) + " " + TimeLimitKey + ShowSpan(limit) + " TimeMin=N/A" + []
  {
    assert ShowSpan(run) == "00:00:05" && ShowSpan(limit) == "01:00:00";
    assert "JobId=42 " + RunTimeKey == "JobId=42 RunTime=";
    assert "JobId=42 RunTime=" + ShowSpan(run) == "JobId=42 RunTime=00:00:05";
    assert "JobId=42 RunTime=00:00:05" + " " + TimeLimitKey == "JobId=42 RunTime=00:00:05 TimeLimit=";
    assert "JobId=42 RunTime=00:00:05 TimeLimit=" + ShowSpan(limit) == "JobId=42 RunTime=00:00:05 TimeLimit=01:00:00";
  }

  lemma PaddedValues(run: Span, limit: Span)
    requires run == Span(None, "00", "00", "05") && limit == Span(None, "01", "00", "00")
    ensures TotalSeconds(run) == 5 && TotalSeconds(limit) == 3600
  {
    assert "00"[..1] == "0" && "05"[..1] == "0" && "01"[..1] == "0" && "0"[..0] == [];
    assert DigitsValue("0") == 0;
    assert DigitsValue("00") == 0 && DigitsValue("05") == 5 && DigitsValue("01") == 1;
  }

  lemma NoKeyInTail()
    ensures !Occurs(" TimeMin=N/A", RunTimeKey) && !Occurs(" TimeMin=N/A", TimeLimitKey)
  {
    var t := " TimeMin=N/A";
    forall p: nat ensures !KeyAt(t, RunTimeKey, p) && !KeyAt(t, TimeLimitKey, p) {
      if p + |RunTimeKey| <= |t| {
        assert t[p..p + |RunTimeKey|][0] == t[p];
      }
      if p + |TimeLimitKey| <= |t| {
        assert t[p..p + |TimeLimitKey|][4] == t[p + 4];
      }
    }
  }

  /** `TimeStop` once both fields are known. */
  lemma TimeStopFromFields(info: string, run: nat, limit: nat)
    requires Seconds(info, RunTimeKey) == Ok(run) && Seconds(info, TimeLimitKey) == Ok(limit)
    ensures TimeStop(info) == if run < TimedeltaLimit && limit < TimedeltaLimit then Ok((run, limit)) else Err(Overflow)
  {
  }

  lemma RunTimeField(pre: string, run: Span, limit: Span, post: string, rest: string)
    requires '\n' !in pre && '\n' !in post
    requires post == [] || !IsDigit(post[0])
    requires !Occurs(post, RunTimeKey)
    requires rest == [] || rest[0] == '\n'
    ensures Seconds(pre + RunTimeKey + ShowSpan(run) + " " + TimeLimitKey + ShowSpan(limit) + post + rest, RunTimeKey)
      == Ok(TotalSeconds(run))
  {
    KeysArePlain();
    SpanCharsOnly(limit);
    var gap := " " + TimeLimitKey;
    var after := gap + ShowSpan(limit) + post;
    GapHoldsNoRunTime();
    NoKeyAcross(gap, ShowSpan(limit), post, RunTimeKey);
    OneLine(" ", TimeLimitKey, ShowSpan(limit), post);
    FieldInDescription(pre, RunTimeKey, run, after, rest);
    Regroup(pre + RunTimeKey + ShowSpan(run), " " , TimeLimitKey, ShowSpan(limit), post, rest);
  }

  lemma TimeLimitField(pre: string, run: Span, limit: Span, post: string, rest: string)
    requires '\n' !in pre && '\n' !in post
    requires post == [] || !IsDigit(post[0])
    requires !Occurs(post, TimeLimitKey)
    requires rest == [] || rest[0] == '\n'
    ensures Seconds(pre + RunTimeKey + ShowSpan(run) + " " + TimeLimitKey + ShowSpan(limit) + post + rest, TimeLimitKey)
      == Ok(TotalSeconds(limit))
  {
    KeysArePlain();
    SpanCharsOnly(run);
    OneLine(pre, RunTimeKey, ShowSpan(run), " ");
    FieldInDescription(pre + RunTimeKey + ShowSpan(run) + " ", TimeLimitKey, limit, post, rest);
  }

  lemma Regroup(a: string, b: string, c: string, d: string, e: string, f: string)
    ensures a + b + c + d + e + f == a + (b + c + d + e) + f
  {
  }

  /** The text between the two fields holds no `RunTime=`. */
  lemma GapHoldsNoRunTime()
    ensures !Occurs(" " + TimeLimitKey, RunTimeKey)
  {
    var g := " " + TimeLimitKey;
    forall p: nat ensures !KeyAt(g, RunTimeKey, p) {
      if p + |RunTimeKey| <= |g| {
        assert g[p..p + |RunTimeKey|][0] == g[p];
      }
    }
  }

  // ---------------------------------------------------------------------
  // A field that is absent is an error.

  /** `key` occurs somewhere in `s`. */
  ghost predicate Occurs(s: string, key: string) {
    exists p: nat :: KeyAt(s, key, p)
  }

  /** Without any occurrence of `Key=` the field is missing, so the stop
      phase fails instead of reporting a duration. */
  lemma AbsentField(info: string, key: string)
    requires !Occurs(info, key)
    ensures Seconds(info, key) == Err(FieldMissing)
  {
    var lines := SplitOn(info, '\n');
    forall i | 0 <= i < |lines| ensures LastMatch(lines[i], key).None? {
      if Occurs(lines[i], key) {
        OccursInPart(lines, '\n', i, key);
      }
      forall p | 0 <= p <= |lines[i]| ensures MatchAt(lines[i], key, p).None? {
        assert !KeyAt(lines[i], key, p);
      }
    }
  }

  /** An occurrence inside one part is an occurrence inside the join. */
  lemma {:induction false} OccursInPart(parts: seq<string>, sep: char, i: nat, key: string)
    requires i < |parts|
    requires Occurs(parts[i], key)
    ensures Occurs(JoinWith(parts, sep), key)
  {
    if |parts| > 1 {
      var head := parts[0];
      var rest := JoinWith(parts[1..], sep);
      var s := head + [sep] + rest;
      if i == 0 {
        var p: nat :| KeyAt(head, key, p);
        assert s[p..p + |key|] == head[p..p + |key|];
        assert KeyAt(s, key, p);
      } else {
        OccursInPart(parts[1..], sep, i - 1, key);
        var p: nat :| KeyAt(rest, key, p);
        var o := |head| + 1;
        assert s[o + p..o + p + |key|] == rest[p..p + |key|];
        assert KeyAt(s, key, o + p);
      }
    }
  }
}

=== FILE: sorting.dfy ===
/** Python's `sorted()` on a list of integers, as an insertion sort: the
    result is the unique ascending rearrangement of the input. */
module Sorting {

  predicate Sorted(xs: seq<int>) {
    forall i, j :: 0 <= i < j < |xs| ==> xs[i] <= xs[j]
  }

  /** `x` placed before the first element not smaller than it. */
  function Insert(x: int, xs: seq<int>): (r: seq<int>)
    requires Sorted(xs)
    ensures Sorted(r)
    ensures multiset(r) == multiset(xs) + multiset{x}
    ensures |r| == |xs| + 1
    ensures r[0] == if xs == [] || x <= xs[0] then x else xs[0]
  {
    if xs == [] || x <= xs[0] then
      ConsSorted(x, xs);
      [x] + xs
    else
      assert Sorted(xs[1..]);
      var tail := Insert(x, xs[1..]);
      ConsSorted(xs[0], tail);
      assert xs == [xs[0]] + xs[1..];
      [xs[0]] + tail
  }

  /** An element no greater than the head of an ascending list extends it. */
  lemma ConsSorted(h: int, t: seq<int>)
    requires Sorted(t) && (t == [] || h <= t[0])
    ensures Sorted([h] + t)
  {
    var r := [h] + t;
    forall i, j | 0 <= i < j < |r| ensures r[i] <= r[j] {
      if i == 0 && j > 1 {
        assert t[0] <= t[j - 1];
      }
    }
  }

  function Sort(xs: seq<int>): (r: seq<int>)
    ensures Sorted(r)
    ensures multiset(r) == multiset(xs)
  {
    if xs == [] then []
    else
      assert xs == [xs[0]] + xs[1..];
      Insert(xs[0], Sort(xs[1..]))
  }

  /** There is only one ascending arrangement of a multiset, so any
      correct sort (Python's included) returns what `Sort` returns. */
  lemma {:induction false} SortedUnique(a: seq<int>, b: seq<int>)
    requires Sorted(a) && Sorted(b) && multiset(a) == multiset(b)
    ensures a == b
  {
    if a == [] {
      assert |multiset(b)| == 0;
    } else {
      assert |multiset(b)| == |a|;
      assert a[0] in multiset(b) && b[0] in multiset(a);
      assert a[0] in b && b[0] in a;
      FirstIsLeast(a, b[0]);
      FirstIsLeast(b, a[0]);
      assert a[0] == b[0];
      RestOf(a);
      RestOf(b);
      assert multiset(a[1..]) == multiset(b[1..]);
      SortedUnique(a[1..], b[1..]);
      assert a == [a[0]] + a[1..] && b == [b[0]] + b[1..];
    }
  }

  /** Dropping the first element of an ascending list. */
  lemma RestOf(xs: seq<int>)
    requires Sorted(xs) && xs != []
    ensures Sorted(xs[1..])
    ensures multiset(xs[1..]) == multiset(xs) - multiset{xs[0]}
  {
    assert xs == [xs[0]] + xs[1..];
  }

  /** The first element of an ascending list is its least. */
  lemma FirstIsLeast(xs: seq<int>, v: int)
    requires Sorted(xs) && v in xs
    ensures xs[0] <= v
  {
  }

  /** The last element of an ascending list is its greatest. */
  lemma LastIsGreatest(xs: seq<int>, v: int)
    requires Sorted(xs) && v in xs
    ensures v <= xs[|xs| - 1]
  {
  }

  /** A value held at least twice sits at two positions, the first before
      the second. */
  lemma {:induction false} TwoPositions(xs: seq<int>, v: int) returns (i: nat, j: nat)
    requires multiset(xs)[v] >= 2
    ensures i < j < |xs| && xs[i] == v && xs[j] == v
  {
    assert xs == [xs[0]] + xs[1..];
    if xs[0] == v {
      assert multiset(xs[1..])[v] >= 1;
      assert v in xs[1..];
      var k :| 0 <= k < |xs[1..]| && xs[1..][k] == v;
      i, j := 0, k + 1;
    } else {
      var i', j' := TwoPositions(xs[1..], v);
      i, j := i' + 1, j' + 1;
    }
  }
}

=== FILE: units.dfy ===
/** The unit conversions the profiler's figures go through. */
module Units {

  /** Nanoseconds per second: `cpuacct.usage_percpu` counts nanoseconds. */
  const NanosPerSecond: real := 1000000000.0

  /** Bytes per GiB, `1024**3`: memory is reported in GiB. */
  const BytesPerGiB: real := 1073741824.0

  /** Millijoules per kilowatt-hour, `3.6e9`: NVML's energy counter is in
      millijoules and the report is in kWh. */
  const MillijoulesPerKWh: real := 3600000000.0
}
